=== FILE: README.md ===
# TruthShield core, modelled in Dafny

TruthShield is a Streamlit application that shows recent fact checks from
the Google Fact Check Tools claim search, renders each claim as a card, and
offers a chat page where a language model answers using the fact checks it
finds. This project models the deterministic logic under those pages and
proves properties of it:

- `fact_check_api.dfy` (`FactCheckApi`): `call_fact_check_api`. It checks the
  key before any request, builds the query parameters, and turns every
  outcome of the one HTTP request into a result value. The HTTP layer is a
  function parameter from the request built to an abstract outcome.
- `gallery.dfy` (`Gallery`): the home page's session state as an immutable
  `Pager` value. Covered: the page-token history behind "Previous Page" /
  "Next Page", the reset on a language change, the button guards, the
  notice above the cards, and the bounds check on the selected claim.
- `claim_card.dfy` (`ClaimCard`): `display_claim`. Covered: the ordered
  thumbnail fallback over the review metadata, the page scrape that follows
  it, the ordinal day suffix, the date fallback, and the items of the card.
- `chat_format.dfy` (`ChatFormat`): `format_fact_check_results`.
- `chat_llm.dfy` (`ChatLlm`): `get_llm_response`. Covered: the message list,
  the Gemini history conversion exactly as the loop is written, and the
  choice between the Groq client, the Gemini client and the no-key message.
- `chat_turn.dfy` (`ChatFlow`): one turn of the chat page. The topic is
  looked up only when one was extracted. The response is classified in the
  page's order, and the transcript grows by the prompt and the reply.
- Support modules:
  - `wrappers.dfy`: `Option`.
  - `json_values.dfy`: decoded JSON with Python's truthiness, `dict.get`,
    `str()` and `type()`.
  - `text.dfy`: `str.strip` over Python's whitespace set, `str(int)`, joining.

Secrets, the HTTP layer, the page fetch, the two regular expressions,
`fromisoformat`/`strftime` and the two model clients are all parameters.
They appear in the `Platform` and `Environment` records, or as function
arguments.

## Model

| member | source | states |
|---|---|---|
| FactCheckApi.Params | utils.py:31-39 | the parameters always hold the key, language and page size; they hold the query only when it is a non-empty string, and the page token only when it is truthy, each with the given value |
| FactCheckApi.CallFactCheckApi | utils.py:27-48 | no request is built exactly when the key is missing or empty, and then the result is `{"error": "API Key missing"}`; otherwise exactly one request goes to the claim-search endpoint with those parameters, and the result is what that request's outcome yields |
| FactCheckApi.CallOutcomes | utils.py:41-66 | every outcome becomes a value: each failure kind (missing key, HTTP 4xx/5xx, transport error, undecodable body, any other exception) gives an `error` dict whose text begins with that kind's prefix; an empty body gives `{"claims": []}`; a decoded body is returned unchanged |
| FactCheckApi.ResultOf | utils.py:41-66 | every failure outcome yields a dict with the single key `error` holding a string; a decoded body is returned as decoded |
| FactCheckApi.ResultOfKind | utils.py:41-66 | the same classification for a single outcome of the request: HTTP errors carry the status code, and each other kind carries its own message prefix |
| FactCheckApi.NonDictOnlyFromBody | utils.py:45-48 | a result that is not a dict can only be a decoded response body passed through |
| Gallery.Init | Home.py:25-30 | a new session starts on the first page: history `[None]`, token `None`, and the invariant holds |
| Gallery.SelectLanguage | Home.py:68-72 | choosing a different language resets to history `[None]` and token `None` whatever the prior history; choosing the same one changes nothing |
| Gallery.GoPrevious | Home.py:175-177 | Previous pops the last history entry, leaves the language alone, and keeps the invariant with the page index one lower |
| Gallery.GoNext | Home.py:179-181 | Next appends the offered token and makes it current, keeping `token == history.last` and the invariant |
| Gallery.PreviousUndoesNext | Home.py:175-181 | after Next, Previous is enabled and restores the exact prior state |
| Gallery.RunFromInit | Home.py:276-290 | from a new session, any run of interactions behind the button guards keeps a non-empty history starting at `None` whose later entries are truthy tokens, and every stored token is one a page offered |
| Gallery.ForwardThenBack | Home.py:68-72 | language change, Next with "T1", then Previous ends on the first page of the new language |
| Gallery.PageRequestCarriesToken | Home.py:193-198 | the gallery asks for "India" in the selected language and sends a page token exactly when past the first page, namely the stored one |
| Gallery.NoticeFor | Home.py:258-269 | claims are shown exactly when there are some; otherwise "no recent" when the token is None and "no more" when it is not |
| Gallery.EmptyLaterPage | Home.py:258-269 | an empty page reached with Next reports "no more", never "no recent" |
| Gallery.RenderGallery | Home.py:249-290 | an `error` key gives the error view, whose message is "Error: " followed by the error as `str` shows it, with the configuration hint exactly for "API Key missing"; otherwise the notice follows the claims and token, Previous is enabled exactly past the first page, and Next exactly for a truthy `nextPageToken` |
| Gallery.MissingKeyShowsHint | Home.py:249-253 | a missing key always reaches the user as "Error: API Key missing" with the hint |
| Gallery.DetailFor | Home.py:204-226 | a claim is shown exactly when the selected index satisfies `0 <= i < len(claims)`, and it is that claim; any other selection is dropped |
| Gallery.RenderGalleryAsWritten | Home.py:258-290 | as written, a page with claims ends at the first `render_gallery_card` call, before any button; every other page gives the intended view |
| Gallery.NonEmptyPageHasNoButtons | Home.py:260-290 | one claim and a next-page token: the intended view shows the card and enables Next, while the page as written draws no button |
| Gallery.DetailAsWritten | Home.py:215-226 | as written, a valid selection ends at the `render_claim_details` call; every other selection behaves as intended |
| Gallery.ValidSelectionRaises | Home.py:215-220 | selecting the only claim is meant to show it, and as written raises |
| ClaimCard.RatingStepMatchesSources | utils.py:92-99 | the `reviewRating` step yields its `imageUrl` when truthy, and otherwise its `image.url` |
| ClaimCard.PublisherStepMatchesSource | utils.py:101-108 | the publisher step yields `publisher.image` (a dict, or a list whose first element is a dict) |
| ClaimCard.MetadataThumbnail | utils.py:85-108 | a thumbnail the metadata chain finds is always one of the four metadata sources |
| ClaimCard.ThumbnailOrder | utils.py:85-108 | the chain finds a thumbnail exactly when one of the four sources holds one, in the order review image, rating `imageUrl`, rating `image.url`, publisher image; it is then the first such source's |
| ClaimCard.ResolveThumbnail | utils.py:110-135 | the review page is fetched, with timeout 10, exactly when metadata gave nothing and a review URL exists; `og:image` beats `twitter:image`; a failed fetch leaves the thumbnail absent; a `RequestException` gives the "Could not fetch review URL (…) for thumbnail: …" warning and any other exception the "Error processing review URL (…) for thumbnail: …" one, each with the URL and the exception text |
| ClaimCard.ScrapedThumbnail | utils.py:117-127 | an `og:image` match wins whether or not a `twitter:image` tag exists; the Twitter tag is used only without it; with neither the thumbnail stays as it was |
| ClaimCard.DaySuffix | utils.py:168-172 | the suffix is one of st/nd/rd/th, and always "th" for 11 to 13 |
| ClaimCard.DaySuffixTable | utils.py:168-172 | over days 1 to 31: "st" exactly for 1, 21 and 31; "nd" for 2 and 22; "rd" for 3 and 23; "th" otherwise |
| ClaimCard.DayWithSuffixDigits | utils.py:168-172 | the suffixed day is the day's digits, which read back as the day, followed by the two-letter suffix |
| ClaimCard.DateLine | utils.py:183-186 | the line always starts with "**Review Date:** " and the date; it is exactly that when there is no time, and otherwise ends with " at " and the time |
| ClaimCard.ReviewDateText | utils.py:161-179 | no date gives "N/A" with no time; an unparseable date is shown verbatim with no time; a parsed one is formatted with the suffixed day and the lower-cased time |
| ClaimCard.DisplayClaim | utils.py:68-197 | a claim without reviews shows its text and "No review details available." beside a placeholder; otherwise the card shows the text, rating, publisher name and site, and date line. It shows the "Read Review" button linking to the review URL when one exists, and "Review URL: N/A" otherwise. It shows an image exactly when a thumbnail was found: that thumbnail, with the publisher name as alt text, or "Review Image" for a falsy name |
| ClaimCard.CardShowsFirstSource | utils.py:85-150 | when the review metadata holds a thumbnail, no page is fetched, and the card's image is the first truthy source in trust order |
| ClaimCard.CardDefaults | utils.py:73-83 | a missing rating, publisher or date shows as "N/A" |
| ChatFormat.Summarize | pages/Chat.py:73-78 | each present text, claimant, rating, publisher name or URL is shown as `str()` renders it; each missing one reads "N/A", including the name of a publisher dict without `name`; a claim without `claimReview` has all three review fields "N/A" |
| ChatFormat.OnlyFirstReviewCounts | pages/Chat.py:75 | only the first review of a claim is read: later reviews do not change the block |
| ChatFormat.BlockInPlace | pages/Chat.py:72-83 | in the accumulated text, claim i's block, numbered i + 1, directly follows the blocks of the claims before it |
| ChatFormat.FormatEquation | pages/Chat.py:71-84 | stripping the header plus the blocks only right-strips the last block |
| ChatFormat.FormatResults | pages/Chat.py:66-84 | no claims give exactly "No fact-check results found for the query."; otherwise the output is the header, the blocks of all claims but the last, and the last block with its trailing whitespace removed |
| ChatFormat.EveryClaimNumbered | pages/Chat.py:71-84 | for every claim i, the output starts with the header, the complete blocks of claims 0..i-1, and claim i's block numbered i + 1 up to "Review URL:"; so all claims appear, in input order |
| ChatLlm.SystemPrompt | pages/Chat.py:92-99 | the prompt opens with the fixed greeting, quotes the query right after it, and carries the results text right after the sentence introducing it |
| ChatLlm.BuildMessages | pages/Chat.py:102-109 | the list is the system prompt, then the history in order, then the user query; its length is the history's plus 2 |
| ChatLlm.ToGeminiHistory | pages/Chat.py:128-144 | the loop builds the history the fold describes; no system entry survives; there are no more entries than non-system messages; the parts joined by newlines are the non-system contents joined by newlines |
| ChatLlm.GeminiContents | pages/Chat.py:130-144 | every non-system content appears in input order, merged ones joined by "\n"; there is an entry exactly when there is a non-system message |
| ChatLlm.GeminiTurns | pages/Chat.py:129-144 | no system entries; after the first assistant message `current_role` stays 'user' and the last entry is an assistant entry; before it, all entries are user entries and `current_role` is 'model' exactly after a user message; entries = assistant messages + user messages before the first assistant |
| ChatLlm.AssistantStartsEntry | pages/Chat.py:142-144 | an assistant message always starts a new entry of its own |
| ChatLlm.UserAfterAssistantMerges | pages/Chat.py:135-138 | after an assistant message, a user message is appended, after a newline, to the last entry, which is the assistant's |
| ChatLlm.UserBeforeAssistantStartsEntry | pages/Chat.py:139-144 | before any assistant message, each user message starts its own entry, so consecutive user messages stay separate |
| ChatLlm.SystemDropped | pages/Chat.py:132-133 | a system message leaves the conversion unchanged |
| ChatLlm.RolesDoNotAlternate | pages/Chat.py:134-144 | two user messages give two user entries; assistant then user gives one assistant entry "a\nb" |
| ChatLlm.QueryMergedAfterAssistant | pages/Chat.py:106-138 | once the history holds an assistant reply, the query reaches Gemini only as the tail of the last assistant entry |
| ChatLlm.BackendFor | pages/Chat.py:112-155 | Groq is used exactly when its key is set; Gemini exactly when only its key is set; otherwise neither |
| ChatLlm.LlmReply | pages/Chat.py:112-159 | for each backend `BackendFor` picks: no key gives the configuration message; Groq is sent the message list and its reply is returned as is; Gemini is sent the converted history and its reply is stripped; any exception gives the apology |
| ChatLlm.UnusedClientIgnored | pages/Chat.py:112-155 | only the chosen client is consulted: with a Groq key, the reply is the same whatever the Gemini key and client are; without one, it is the same whatever the Groq client is |
| ChatLlm.GeminiReplyStripped | pages/Chat.py:150-152 | a Gemini reply reaches the chat with no whitespace at either end |
| ChatFlow.ClassifyResponse | pages/Chat.py:195-212 | the checks run in this order: an `error` key, then a truthy `claims`, then any other dict (nothing found), then a non-dict, which is reported with its type |
| ChatFlow.ResultsText | pages/Chat.py:195-212 | found claims are given to the model as the formatted results; every other text names the topic in quotes, and an error text ends with the error itself |
| ChatFlow.WarningFor | pages/Chat.py:195-212 | a warning is shown exactly for an error response or a non-dict response, with the matching text |
| ChatFlow.HandlePrompt | pages/Chat.py:172-222 | the API is called exactly when the topic is not "NO_CLAIM", and then the results text and warning follow its classified response; otherwise the "Please provide…" text is used with no warning; the model gets the system prompt, the transcript before this prompt, then the prompt; the transcript grows by the prompt and the reply |
| ChatFlow.LookupRequestShape | pages/Chat.py:189-192 | the lookup asks for the topic in the home page's language, or "en", with page size 5 and no page token |
| ChatFlow.LookupOutcomes | pages/Chat.py:195-207 | every failure of the call reads as an error response, an empty body as "nothing found", and a decoded body is classified on its own |
| ChatFlow.MissingKeyTurn | pages/Chat.py:195-198 | without the fact-check key, the model is told and the user warned that "API Key missing" |
| ChatFlow.TurnKeepsAlternating | pages/Chat.py:174-222 | each turn keeps the transcript alternating user/assistant, starting with the user |
| ChatFlow.LaterPromptsMergedForGemini | pages/Chat.py:216 | from the second turn on, the Gemini client sees the prompt only as the tail of the last assistant reply's entry |

## Left out

- pages/Search.py and the home page's search form and search results (Home.py:116-167, 230-245). They are widget plumbing around the same API call.
- All Streamlit rendering: HTML and CSS, columns, spinners, `st.rerun`/`st.stop`, and the session-state container. Session state is the explicit `Pager` value, and the card is a list of items.
- The `st.cache_data(ttl=3600)` memoisation of the API call. It is framework behaviour.
- The network and the model clients. `requests.get`, the page fetch, and the Groq and Gemini clients are abstract functions or outcome datatypes.
- The two `og:image`/`twitter:image` regular expressions, `datetime.fromisoformat` and `strftime`. They are opaque parameters of `Platform`.
- `extract_claim_topic`. Its result is a language model's reply, so the topic is an input of `ChatFlow.HandlePrompt`.
- The wording of the system prompt's instruction paragraph. It is the unspecified constant `PromptInstructions`, since no logic reads it. The query and the results text sit in the prompt at the positions the source gives.
- The repr of dicts and lists in f-strings. It is the `repr` parameter; scalars are rendered as Python does.
- Floating-point JSON numbers. JSON numbers are integers.
- `int(selected_claim_key)` raising on a non-numeric key (Home.py:207-213). The selection is an optional integer.
- Inputs on which the source raises an uncaught exception. The shape predicates below exclude them. Each line names where the source would raise outside its predicate.
  - `ChatFormat.ClaimShaped`: pages/Chat.py:75-76. `claimReview` present but empty or not a list, a first review that is not a dict, or a publisher that is not a dict.
  - `ClaimCard.ClaimShaped` and `ClaimCard.ReviewShaped`: utils.py:73-80. A claim or first review that is not a dict, a truthy `claimReview` that is not a list (indexed at utils.py:76-77), or a publisher that is not a dict.
  - `ClaimCard.ReviewShaped`: utils.py:166. A truthy `reviewDate` that is not a string; its `.replace` raises `AttributeError`, which the `except ValueError` does not catch.
  - `ClaimCard.UrlShaped`: utils.py:112, 131-134 and 189. A truthy `url` that is not a string. The fetch or the string concatenation of the warning raises. When a metadata thumbnail is found, no fetch happens, and the value reaches `st.link_button` at utils.py:189 instead.
  - `Gallery.PageShaped`: Home.py:200 raises for a response that is not a dict. Home.py:265-267 raises for a truthy `claims` that is not a list. A falsy `claims` of any type reads as no claims.
  - `Gallery.DetailFor` takes the claims as a list. For a falsy `claims` that is not a list (`None`, `0`, `False`), `len(claims)` at Home.py:215 raises `TypeError` whenever a claim is selected.
  - `ChatFlow.TurnShaped`: pages/Chat.py:202. Found claims that `format_fact_check_results` cannot read.
  - `ChatFlow.TurnKeepsAlternating` holds only for turns that `TurnShaped` admits. When formatting raises at pages/Chat.py:202, the prompt appended at pages/Chat.py:174 stays in the transcript with no reply. The next turn then sees two user messages in a row.
- Gallery.RenderGallery: this is the intended view. It assumes that `utils.render_gallery_card`, which the page calls at Home.py:267, exists and returns normally. utils.py does not define it; the page as written is `Gallery.RenderGalleryAsWritten` (see "## Findings").
- Gallery.DetailFor: this is the intended detail view. It assumes that `utils.render_claim_details`, which the page calls at Home.py:220, exists and returns normally. utils.py does not define it; the page as written is `Gallery.DetailAsWritten` (see "## Findings").
- ChatLlm.LlmReply: a Groq reply is always a string. The client's `message.content` can be `None` (pages/Chat.py:121). The page would then show and store `None` (pages/Chat.py:219-222). Client replies are modelled as text.
- Chat roles other than system, user and assistant. The page produces no others.
- The decoding of `response.content` into `response.text`. A response carries both, independently. The empty-page test reads the bytes, as the source does. So a body that is only a byte-order mark is not an empty page: it goes on to `response.json()`.
- FactCheckApi.ResultOf: the decode-error branch is modelled as written. With requests 2.27 or later, `response.json()` raises a `JSONDecodeError` that is also a `RequestException`, so the earlier clause would report "API Request Error: …" instead. Either way the result is an `error` dict, which `CallOutcomes` still covers.
- `Text.LowerAscii` (the `.lower()` of the formatted time) lower-cases ASCII letters only. `strftime("%p")` yields only ASCII.

## Findings

| source | as written | input that shows it | evidently intended | confidence | as-written member | corrected member |
|---|---|---|---|---|---|---|
| Home.py:267 | each gallery card is drawn with `utils.render_gallery_card`. utils.py defines only `call_fact_check_api` and `display_claim`, so the first card raises `AttributeError`, and the pagination buttons (Home.py:271-290) are never drawn | a response with one claim and a `nextPageToken` | the cards are drawn, then Previous and Next follow their guards | not executed | Gallery.RenderGalleryAsWritten, Gallery.NonEmptyPageHasNoButtons | Gallery.RenderGallery |
| Home.py:220 | the selected claim is drawn with `utils.render_claim_details`, which utils.py does not define, so a valid selection raises `AttributeError`. As written the branch is also unreachable: only `view_claim_details` (Home.py:183-184) sets a selection, and nothing calls it, since the card helper that would is missing | selection 0 on a page with one claim, once a card helper sets it | the selected claim is shown under the "Back to Gallery" button | not executed | Gallery.DetailAsWritten, Gallery.ValidSelectionRaises | Gallery.DetailFor |

=== FILE: chat_format.dfy ===
/**
 `format_fact_check_results`: the text block of fact-check results that the
 chat page hands to the language model. One numbered block per claim, in
 input order, each field defaulting to "N/A", the whole text stripped.
 */
module ChatFormat {
  import opened Text
  import opened JsonValues

  const NoResultsText := "No fact-check results found for the query."
  const Header := "Here are the fact-check results found:\n\n"
  const Missing := "N/A"

  /** The claim shapes the formatter reads without raising: a dict whose
      `claimReview`, when present, is a non-empty list starting with a dict,
      and that review's publisher, when present, is a dict. (An explicit empty
      list would fail on `[0]`.) */
  predicate ClaimShaped(c: Json) {
    && c.JObj?
    && ("claimReview" in c.fields ==>
          var reviews := c.fields["claimReview"];
          && reviews.JArr? && |reviews.items| > 0 && reviews.items[0].JObj?
          && ("publisher" in reviews.items[0].fields ==> reviews.items[0].fields["publisher"].JObj?))
  }

  predicate AllShaped(cs: seq<Json>) {
    forall i :: 0 <= i < |cs| ==> ClaimShaped(cs[i])
  }

  /** `claim.get('claimReview', [{}])[0]` */
  function FirstReview(c: Json): map<string, Json>
    requires ClaimShaped(c)
  {
    if "claimReview" in c.fields then c.fields["claimReview"].items[0].fields else map[]
  }

  datatype Summary = Summary(text: string, claimant: string, rating: string, publisher: string, url: string)

  /** `str(d.get(k, 'N/A'))` */
  function FieldText(m: map<string, Json>, k: string, repr: Json -> string): string {
    Show(GetOr(m, k, JStr(Missing)), repr)
  }

  /** The five fields a block shows, each as `str()` renders it. Each missing
      one reads "N/A", including a publisher without a name; a claim without
      reviews has no rating, publisher or URL. */
  function Summarize(c: Json, repr: Json -> string): (s: Summary)
    requires ClaimShaped(c)
    ensures "text" !in c.fields ==> s.text == Missing
    ensures "claimant" !in c.fields ==> s.claimant == Missing
    ensures "claimReview" !in c.fields ==> s.rating == Missing && s.publisher == Missing && s.url == Missing
    ensures "textualRating" !in FirstReview(c) ==> s.rating == Missing
    ensures "url" !in FirstReview(c) ==> s.url == Missing
    ensures "publisher" !in FirstReview(c) ==> s.publisher == Missing
    ensures "text" in c.fields && c.fields["text"].JStr? ==> s.text == c.fields["text"].s
    ensures "text" in c.fields ==> s.text == Show(c.fields["text"], repr)
    ensures "claimant" in c.fields ==> s.claimant == Show(c.fields["claimant"], repr)
    ensures "textualRating" in FirstReview(c) ==> s.rating == Show(FirstReview(c)["textualRating"], repr)
    ensures "url" in FirstReview(c) ==> s.url == Show(FirstReview(c)["url"], repr)
    ensures "publisher" in FirstReview(c) ==>
              var publisher := FirstReview(c)["publisher"].fields;
              s.publisher == (if "name" in publisher then Show(publisher["name"], repr) else Missing)
  {
    var review := FirstReview(c);
    var publisher := GetOr(review, "publisher", EmptyObj).fields;
    Summary(FieldText(c.fields, "text", repr), FieldText(c.fields, "claimant", repr),
            FieldText(review, "textualRating", repr), FieldText(publisher, "name", repr),
            FieldText(review, "url", repr))
  }

  /** Only the first review of a claim is read. */
  lemma OnlyFirstReviewCounts(c: Json, first: Json, rest1: seq<Json>, rest2: seq<Json>, repr: Json -> string)
    requires c.JObj? && first.JObj?
    requires "publisher" in first.fields ==> first.fields["publisher"].JObj?
    ensures var c1 := JObj(c.fields["claimReview" := JArr([first] + rest1)]);
            var c2 := JObj(c.fields["claimReview" := JArr([first] + rest2)]);
            ClaimShaped(c1) && ClaimShaped(c2) && Summarize(c1, repr) == Summarize(c2, repr)
  {
  }

  /** A block up to and including "Review URL:". */
  function Lead(s: Summary, number: nat): string {
    NatToString(number) + ". Claim: " + s.text + "\n"
    + "   Claimant: " + s.claimant + "\n"
    + "   Rating: " + s.rating + " (by " + s.publisher + ")\n"
    + "   Review URL:"
  }

  function Block(s: Summary, number: nat): string {
    Lead(s, number) + " " + s.url + "\n\n"
  }

  /** The block of each claim, numbered from 1. */
  function BlockTexts(cs: seq<Json>, repr: Json -> string): seq<string>
    requires AllShaped(cs)
  {
    seq(|cs|, k requires 0 <= k < |cs| => Block(Summarize(cs[k], repr), k + 1))
  }

  /** The text the loop accumulates after the header. */
  function Blocks(cs: seq<Json>, repr: Json -> string): string
    requires AllShaped(cs)
  {
    Concat(BlockTexts(cs, repr))
  }

  /** The numbering of a claim does not depend on the claims after it. */
  lemma BlockTextsPrefix(cs: seq<Json>, i: nat, repr: Json -> string)
    requires AllShaped(cs) && i <= |cs|
    ensures BlockTexts(cs[..i], repr) == BlockTexts(cs, repr)[..i]
  {
    assert forall k :: 0 <= k < i ==> cs[..i][k] == cs[k];
  }

  /** Claim i's block, numbered i + 1, follows the blocks of the claims before it. */
  lemma BlockInPlace(cs: seq<Json>, i: nat, repr: Json -> string)
    requires AllShaped(cs) && i < |cs|
    ensures Blocks(cs[..i], repr) + Block(Summarize(cs[i], repr), i + 1) <= Blocks(cs, repr)
  {
    assert AllShaped(cs[..i]);
    var bs := BlockTexts(cs, repr);
    BlockTextsPrefix(cs, i, repr);
    ConcatInPlace(bs, i);
  }

  /** A string ending in a non-space keeps all of itself under rstrip, whatever follows. */
  lemma KeptByTrimRight(p: string, t: string)
    requires |p| > 0 && !IsSpace(p[|p| - 1])
    ensures p <= TrimRight(p + t)
  {
    var r := TrimRight(p + t);
    assert (p + t)[|p| - 1] == p[|p| - 1];
    assert |r| >= |p|;
    assert r == (p + t)[..|r|];
    assert p == (p + t)[..|p|];
  }

  lemma BlockStartsWithDigit(s: Summary, number: nat)
    ensures |Block(s, number)| > 0 && IsDigit(Block(s, number)[0])
  {
    var digits := NatToString(number);
    assert Block(s, number) == digits + (Block(s, number)[|digits|..]);
  }

  lemma BlockStartsClean(s: Summary, number: nat)
    ensures |Block(s, number)| > 0 && !IsSpace(Block(s, number)[0])
  {
    BlockStartsWithDigit(s, number);
  }

  lemma HeaderStartsClean()
    ensures |Header| > 0 && !IsSpace(Header[0])
  {
  }

  lemma BlocksSnoc(cs: seq<Json>, repr: Json -> string)
    requires AllShaped(cs) && |cs| > 0
    ensures Blocks(cs, repr) == Blocks(cs[..|cs| - 1], repr) + Block(Summarize(cs[|cs| - 1], repr), |cs|)
  {
    var bs := BlockTexts(cs, repr);
    BlockTextsPrefix(cs, |cs| - 1, repr);
    assert Concat(bs) == Concat(bs[..|bs| - 1]) + bs[|bs| - 1];
  }

  /** Stripping the header followed by blocks only right-strips the last block. */
  lemma StripBlocks(head: string, blocks: string, last: string)
    requires |head| > 0 && !IsSpace(head[0])
    requires |last| > 0 && !IsSpace(last[0])
    ensures Strip(head + (blocks + last)) == head + blocks + TrimRight(last)
  {
    var prefix := head + blocks;
    assert head + (blocks + last) == prefix + last;
    assert !IsSpace(last[0]);
    TrimRightAppend(prefix, last);
    var t := prefix + TrimRight(last);
    assert t[0] == head[0];
    assert TrimLeft(t) == t;
  }

  lemma FormatEquation(claims: seq<Json>, repr: Json -> string)
    requires AllShaped(claims) && |claims| > 0
    ensures Strip(Header + Blocks(claims, repr))
            == Header + Blocks(claims[..|claims| - 1], repr) + TrimRight(Block(Summarize(claims[|claims| - 1], repr), |claims|))
  {
    BlocksSnoc(claims, repr);
    BlockStartsClean(Summarize(claims[|claims| - 1], repr), |claims|);
    HeaderStartsClean();
    StripBlocks(Header, Blocks(claims[..|claims| - 1], repr), Block(Summarize(claims[|claims| - 1], repr), |claims|));
  }

  /** The formatter: the fixed text for no claims, otherwise the header and the
      numbered blocks, stripped. Stripping only removes the whitespace that
      ends the last block (at most its URL's trailing whitespace and the
      closing blank line). */
  function FormatResults(claims: seq<Json>, repr: Json -> string): (r: string)
    requires AllShaped(claims)
    ensures |claims| == 0 ==> r == NoResultsText
    ensures |claims| > 0 ==>
              r == Header + Blocks(claims[..|claims| - 1], repr)
                   + TrimRight(Block(Summarize(claims[|claims| - 1], repr), |claims|))
  {
    if |claims| == 0 then NoResultsText
    else
      FormatEquation(claims, repr);
      Strip(Header + Blocks(claims, repr))
  }

  /** A prefix stays a prefix after a common head and anything appended. */
  lemma PrefixUnderHead(head: string, a1: string, a2: string, b: string, whole: string)
    requires a1 + a2 <= b && head + b <= whole
    ensures head + a1 + a2 <= whole
  {
    assert head + a1 + a2 == (head + b)[..|head| + |a1| + |a2|];
  }

  /** The output keeps the blocks of all claims but the last unchanged. */
  lemma FrontBlocksKept(claims: seq<Json>, repr: Json -> string)
    requires AllShaped(claims) && |claims| > 0
    ensures Header + Blocks(claims[..|claims| - 1], repr) <= FormatResults(claims, repr)
  {
    var n := |claims|;
    assert AllShaped(claims[..n - 1]);
    var h := Header + Blocks(claims[..n - 1], repr);
    var tail := TrimRight(Block(Summarize(claims[n - 1], repr), n));
    assert FormatResults(claims, repr) == h + tail;
  }

  lemma PrefixKeepsHead(head: string, a: string, b: string)
    requires a <= b
    ensures head + a <= head + b
  {
    assert head + b == (head + a) + b[|a|..];
  }

  lemma LeadEndsClean(s: Summary, number: nat)
    ensures |Lead(s, number)| > 0 && Lead(s, number)[|Lead(s, number)| - 1] == ':'
  {
  }

  lemma BlockAfterLead(s: Summary, number: nat)
    ensures Block(s, number) == Lead(s, number) + (" " + s.url + "\n\n")
  {
  }

  lemma PrefixOfPrefix(x: string, a: string, b: string, whole: string)
    requires x + b <= whole && a <= b
    ensures x + a <= whole
  {
    assert x + a == (x + b)[..|x| + |a|];
  }

  /** Within the blocks of all claims but the last, claim i's lead follows the
      blocks before it. */
  lemma LeadInFrontBlocks(claims: seq<Json>, i: nat, repr: Json -> string)
    requires AllShaped(claims) && i < |claims| - 1
    ensures Blocks(claims[..i], repr) + Lead(Summarize(claims[i], repr), i + 1) <= Blocks(claims[..|claims| - 1], repr)
  {
    var front := claims[..|claims| - 1];
    assert AllShaped(front) && AllShaped(claims[..i]);
    var s := Summarize(claims[i], repr);
    BlockInPlace(front, i, repr);
    assert front[..i] == claims[..i] && front[i] == claims[i];
    BlockAfterLead(s, i + 1);
    PrefixOfPrefix(Blocks(claims[..i], repr), Lead(s, i + 1), Block(s, i + 1), Blocks(front, repr));
  }

  /** Whatever starts the blocks of all claims but the last starts the output
      after the header. */
  lemma KeptUnderHeader(claims: seq<Json>, a: string, b: string, repr: Json -> string)
    requires AllShaped(claims) && |claims| > 0
    requires a + b <= Blocks(claims[..|claims| - 1], repr)
    ensures Header + a + b <= FormatResults(claims, repr)
  {
    assert AllShaped(claims[..|claims| - 1]);
    FrontBlocksKept(claims, repr);
    PrefixUnderHead(Header, a, b, Blocks(claims[..|claims| - 1], repr), FormatResults(claims, repr));
  }

  /** A claim other than the last keeps its whole block. */
  lemma EarlierClaimNumbered(claims: seq<Json>, i: nat, repr: Json -> string)
    requires AllShaped(claims) && i < |claims| - 1
    ensures Header + Blocks(claims[..i], repr) + Lead(Summarize(claims[i], repr), i + 1)
            <= FormatResults(claims, repr)
  {
    LeadInFrontBlocks(claims, i, repr);
    KeptUnderHeader(claims, Blocks(claims[..i], repr), Lead(Summarize(claims[i], repr), i + 1), repr);
  }

  /** The last claim keeps its block up to "Review URL:", which ends in a non-space. */
  lemma LastClaimNumbered(claims: seq<Json>, repr: Json -> string)
    requires AllShaped(claims) && |claims| > 0
    ensures var i := |claims| - 1;
            Header + Blocks(claims[..i], repr) + Lead(Summarize(claims[i], repr), i + 1)
            <= FormatResults(claims, repr)
  {
    var n := |claims|;
    assert AllShaped(claims[..n - 1]);
    var s := Summarize(claims[n - 1], repr);
    var lead := Lead(s, n);
    LeadEndsClean(s, n);
    BlockAfterLead(s, n);
    KeptByTrimRight(lead, " " + s.url + "\n\n");
    var front := Blocks(claims[..n - 1], repr);
    PrefixKeepsHead(Header + front, lead, TrimRight(Block(s, n)));
  }

  /** Every claim appears, in input order, numbered from 1: the output begins
      with the header, the complete blocks of the claims before it, and its
      own block up to "Review URL:". */
  lemma EveryClaimNumbered(claims: seq<Json>, i: nat, repr: Json -> string)
    requires AllShaped(claims) && i < |claims|
    ensures Header + Blocks(claims[..i], repr) + Lead(Summarize(claims[i], repr), i + 1)
            <= FormatResults(claims, repr)
  {
    if i < |claims| - 1 {
      EarlierClaimNumbered(claims, i, repr);
    } else {
      LastClaimNumbered(claims, repr);
    }
  }
}

=== FILE: chat_llm.dfy ===
/**
 `get_llm_response` on the chat page: the message list handed to the language
 model, the conversion of that list into the history format of the Gemini
 client, and the choice between the Groq client, the Gemini client and the
 no-key message. The clients themselves are parameters: each maps what it is
 sent to the reply it gives or the exception it raises.
 */
module ChatLlm {
  import opened Wrappers
  import opened Text

  /** The roles the chat page produces: the system prompt, and the "user" and
      "assistant" turns of the transcript. */
  datatype Role = System | User | Assistant

  datatype Message = Message(role: Role, content: string)

  const PromptOpening := "You are a helpful and friendly assistant designed to discuss fact-checking information. The user has asked: '"
  const PromptResultsIntro := "'.\n\nHere are the fact-check results relevant to their query:\n"
  /** The fixed instruction paragraph that closes the system prompt; its
      wording plays no part in the logic, so it is left unspecified. */
  const PromptInstructions: string

  /** The system prompt quotes the user's query and embeds the results text:
      the query sits right after the opening, the results right after the
      sentence that introduces them. */
  function SystemPrompt(query: string, results: string): (p: string)
    ensures var q := |PromptOpening|;
            var t := q + |query| + |PromptResultsIntro|;
            && |p| >= t + |results|
            && p[..q] == PromptOpening
            && p[q..q + |query|] == query
            && p[q + |query|..t] == PromptResultsIntro
            && p[t..t + |results|] == results
  {
    PromptOpening + query + PromptResultsIntro + results + PromptInstructions
  }

  /** The message list: the system prompt, then the earlier turns in order,
      then the current query as a user message. */
  function BuildMessages(systemPrompt: string, history: seq<Message>, query: string): (ms: seq<Message>)
    ensures |ms| == |history| + 2
    ensures ms[0] == Message(System, systemPrompt)
    ensures forall k :: 0 <= k < |history| ==> ms[k + 1] == history[k]
    ensures ms[|ms| - 1] == Message(User, query)
  {
    [Message(System, systemPrompt)] + history + [Message(User, query)]
  }

  // ---------------------------------------------------------------------------
  // The Gemini history conversion, as the loop is written.

  /** One `{'role': ..., 'parts': [...]}` entry. The role is the message's own
      role name; the single part is the (possibly merged) content. */
  datatype GeminiEntry = GeminiEntry(role: Role, part: string)

  /** The values `current_role` takes: 'user' and 'model'. */
  datatype Turn = UserTurn | ModelTurn

  /** `msg["role"] == current_role`: only a user message can match, since no
      message has the role name 'model'. */
  predicate SameRole(r: Role, t: Turn) {
    r == User && t == UserTurn
  }

  /** `'model' if msg["role"] == 'user' else 'user'` */
  function NextTurn(r: Role): Turn {
    if r == User then ModelTurn else UserTurn
  }

  datatype Conversion = Conversion(entries: seq<GeminiEntry>, current: Turn)

  const StartConversion := Conversion([], UserTurn)

  /** One iteration of the loop. A system message is skipped. A message whose
      role matches `current_role` is appended to the last entry's part after a
      newline (without touching `current_role`), or starts the history when it
      is empty. Any other message starts a new entry. */
  function GeminiStep(c: Conversion, m: Message): Conversion {
    if m.role == System then c
    else if SameRole(m.role, c.current) && |c.entries| > 0 then
      var last := c.entries[|c.entries| - 1];
      Conversion(c.entries[..|c.entries| - 1] + [GeminiEntry(last.role, last.part + "\n" + m.content)], c.current)
    else
      Conversion(c.entries + [GeminiEntry(m.role, m.content)], NextTurn(m.role))
  }

  function GeminiFold(ms: seq<Message>): Conversion {
    if |ms| == 0 then StartConversion else GeminiStep(GeminiFold(ms[..|ms| - 1]), ms[|ms| - 1])
  }

  lemma FoldSnoc(ms: seq<Message>, m: Message)
    ensures GeminiFold(ms + [m]) == GeminiStep(GeminiFold(ms), m)
  {
    assert (ms + [m])[..|ms|] == ms;
  }

  /** The conversion loop itself; the history it builds is the fold's. */
  method ToGeminiHistory(messages: seq<Message>) returns (history: seq<GeminiEntry>)
    ensures history == GeminiFold(messages).entries
    ensures forall k :: 0 <= k < |history| ==> history[k].role != System
    ensures |history| <= |NonSystemContents(messages)|
    ensures JoinLines(Parts(history)) == JoinLines(NonSystemContents(messages))
  {
    history := [];
    var current := UserTurn;
    var i := 0;
    while i < |messages|
      invariant 0 <= i <= |messages|
      invariant Conversion(history, current) == GeminiFold(messages[..i])
    {
      var msg := messages[i];
      assert messages[..i + 1] == messages[..i] + [msg];
      FoldSnoc(messages[..i], msg);
      if msg.role == System {
      } else if SameRole(msg.role, current) {
        if |history| > 0 {
          var last := history[|history| - 1];
          history := history[..|history| - 1] + [GeminiEntry(last.role, last.part + "\n" + msg.content)];
        } else {
          history := history + [GeminiEntry(msg.role, msg.content)];
          current := NextTurn(msg.role);
        }
      } else {
        history := history + [GeminiEntry(msg.role, msg.content)];
        current := NextTurn(msg.role);
      }
      i := i + 1;
    }
    assert messages[..i] == messages;
    GeminiContents(messages);
    GeminiTurns(messages);
  }

  // ---------------------------------------------------------------------------
  // Independent descriptions of what the loop keeps.

  /** The contents of the non-system messages, in order. */
  function NonSystemContents(ms: seq<Message>): seq<string> {
    if |ms| == 0 then []
    else
      var front := NonSystemContents(ms[..|ms| - 1]);
      if ms[|ms| - 1].role == System then front else front + [ms[|ms| - 1].content]
  }

  function Parts(entries: seq<GeminiEntry>): seq<string> {
    seq(|entries|, k requires 0 <= k < |entries| => entries[k].part)
  }

  /** How many messages have role `r`. */
  function CountRole(ms: seq<Message>, r: Role): nat {
    if |ms| == 0 then 0
    else CountRole(ms[..|ms| - 1], r) + (if ms[|ms| - 1].role == r then 1 else 0)
  }

  /** How many user messages come before the first assistant message. */
  function LeadingUsers(ms: seq<Message>): nat {
    if |ms| == 0 then 0
    else
      var front := ms[..|ms| - 1];
      LeadingUsers(front) + (if CountRole(front, Assistant) == 0 && ms[|ms| - 1].role == User then 1 else 0)
  }

  lemma NonSystemSnoc(ms: seq<Message>, m: Message)
    ensures NonSystemContents(ms + [m]) == if m.role == System then NonSystemContents(ms) else NonSystemContents(ms) + [m.content]
    ensures CountRole(ms + [m], Assistant) == CountRole(ms, Assistant) + (if m.role == Assistant then 1 else 0)
    ensures LeadingUsers(ms + [m]) == LeadingUsers(ms) + (if CountRole(ms, Assistant) == 0 && m.role == User then 1 else 0)
  {
    assert (ms + [m])[..|ms|] == ms;
  }

  /** The text survives the conversion: the parts, joined by newlines, are the
      non-system contents joined by newlines; there is an entry exactly when
      there is a non-system message, and never more entries than messages. */
  lemma {:induction false} GeminiContents(ms: seq<Message>)
    ensures var c := GeminiFold(ms);
            && (|c.entries| == 0 <==> |NonSystemContents(ms)| == 0)
            && |c.entries| <= |NonSystemContents(ms)|
            && JoinLines(Parts(c.entries)) == JoinLines(NonSystemContents(ms))
  {
    if |ms| > 0 {
      var front := ms[..|ms| - 1];
      var m := ms[|ms| - 1];
      assert front + [m] == ms;
      GeminiContents(front);
      NonSystemSnoc(front, m);
      ContentsStep(GeminiFold(front), NonSystemContents(front), m);
    }
  }

  lemma ContentsStep(c: Conversion, contents: seq<string>, m: Message)
    requires |c.entries| == 0 <==> |contents| == 0
    requires |c.entries| <= |contents|
    requires JoinLines(Parts(c.entries)) == JoinLines(contents)
    ensures var d := GeminiStep(c, m);
            var next := if m.role == System then contents else contents + [m.content];
            && (|d.entries| == 0 <==> |next| == 0)
            && |d.entries| <= |next|
            && JoinLines(Parts(d.entries)) == JoinLines(next)
  {
    if m.role == System {
    } else if SameRole(m.role, c.current) && |c.entries| > 0 {
      MergeKeepsText(c.entries, contents, m.content);
    } else {
      AppendKeepsText(c.entries, contents, GeminiEntry(m.role, m.content));
    }
  }

  lemma PartsSnoc(es: seq<GeminiEntry>, e: GeminiEntry)
    ensures Parts(es + [e]) == Parts(es) + [e.part]
  {
  }

  lemma AppendKeepsText(es: seq<GeminiEntry>, contents: seq<string>, e: GeminiEntry)
    requires |es| == 0 <==> |contents| == 0
    requires JoinLines(Parts(es)) == JoinLines(contents)
    ensures JoinLines(Parts(es + [e])) == JoinLines(contents + [e.part])
  {
    PartsSnoc(es, e);
    JoinLinesSnoc(Parts(es), e.part);
    JoinLinesSnoc(contents, e.part);
  }

  lemma MergeKeepsText(es: seq<GeminiEntry>, contents: seq<string>, x: string)
    requires |es| > 0 && |contents| > 0
    requires JoinLines(Parts(es)) == JoinLines(contents)
    ensures var last := es[|es| - 1];
            JoinLines(Parts(es[..|es| - 1] + [GeminiEntry(last.role, last.part + "\n" + x)]))
            == JoinLines(contents + [x])
  {
    var front := es[..|es| - 1];
    var last := es[|es| - 1];
    assert front + [last] == es;
    PartsSnoc(front, last);
    PartsSnoc(front, GeminiEntry(last.role, last.part + "\n" + x));
    JoinLinesExtendLast(Parts(front), last.part, x);
    JoinLinesSnoc(contents, x);
  }

  /** What the roles look like after the conversion. No entry is a system
      entry. Once an assistant message has been seen, `current_role` stays
      'user' and the last entry is an assistant entry; before that, every entry
      is a user entry and `current_role` is 'model' exactly when some user
      message was seen. There is one entry per assistant message plus one per
      user message before the first assistant message. */
  predicate TurnShape(ms: seq<Message>, c: Conversion) {
    && (forall k :: 0 <= k < |c.entries| ==> c.entries[k].role != System)
    && (CountRole(ms, Assistant) > 0 ==>
          c.current == UserTurn && |c.entries| > 0 && c.entries[|c.entries| - 1].role == Assistant)
    && (CountRole(ms, Assistant) == 0 ==>
          && (c.current == ModelTurn <==> LeadingUsers(ms) > 0)
          && (forall k :: 0 <= k < |c.entries| ==> c.entries[k].role == User))
    && |c.entries| == CountRole(ms, Assistant) + LeadingUsers(ms)
  }

  lemma {:induction false} GeminiTurns(ms: seq<Message>)
    ensures TurnShape(ms, GeminiFold(ms))
  {
    if |ms| > 0 {
      var front := ms[..|ms| - 1];
      var m := ms[|ms| - 1];
      assert front + [m] == ms;
      GeminiTurns(front);
      NonSystemSnoc(front, m);
      TurnsStep(front, GeminiFold(front), m);
    }
  }

  lemma TurnsStep(ms: seq<Message>, c: Conversion, m: Message)
    requires TurnShape(ms, c)
    requires CountRole(ms + [m], Assistant) == CountRole(ms, Assistant) + (if m.role == Assistant then 1 else 0)
    requires LeadingUsers(ms + [m]) == LeadingUsers(ms) + (if CountRole(ms, Assistant) == 0 && m.role == User then 1 else 0)
    ensures TurnShape(ms + [m], GeminiStep(c, m))
  {
    var d := GeminiStep(c, m);
    if m.role != System && SameRole(m.role, c.current) && |c.entries| > 0 {
      assert CountRole(ms, Assistant) > 0;
      forall k | 0 <= k < |d.entries| ensures d.entries[k].role != System {
        if k < |c.entries| - 1 {
          assert d.entries[k] == c.entries[k];
        } else {
          assert d.entries[k].role == c.entries[|c.entries| - 1].role;
        }
      }
    } else if m.role != System {
      forall k | 0 <= k < |d.entries| ensures d.entries[k].role != System {
        if k < |c.entries| {
          assert d.entries[k] == c.entries[k];
        }
      }
      if CountRole(ms + [m], Assistant) == 0 {
        forall k | 0 <= k < |d.entries| ensures d.entries[k].role == User {
          if k < |c.entries| {
            assert d.entries[k] == c.entries[k];
          }
        }
      }
    }
  }

  /** An assistant message always starts an entry of its own. */
  lemma AssistantStartsEntry(ms: seq<Message>, a: string)
    ensures GeminiFold(ms + [Message(Assistant, a)]).entries == GeminiFold(ms).entries + [GeminiEntry(Assistant, a)]
  {
    FoldSnoc(ms, Message(Assistant, a));
  }

  /** After an assistant message, a user message is merged into the last entry,
      which is an assistant entry. */
  lemma UserAfterAssistantMerges(ms: seq<Message>, u: string)
    requires CountRole(ms, Assistant) > 0
    ensures var es := GeminiFold(ms).entries;
            && |es| > 0 && es[|es| - 1].role == Assistant
            && GeminiFold(ms + [Message(User, u)]).entries
               == es[..|es| - 1] + [GeminiEntry(Assistant, es[|es| - 1].part + "\n" + u)]
  {
    GeminiTurns(ms);
    FoldSnoc(ms, Message(User, u));
  }

  /** Before any assistant message, each user message starts an entry of its
      own, so consecutive user messages are not merged. */
  lemma UserBeforeAssistantStartsEntry(ms: seq<Message>, u: string)
    requires CountRole(ms, Assistant) == 0
    ensures GeminiFold(ms + [Message(User, u)]).entries == GeminiFold(ms).entries + [GeminiEntry(User, u)]
  {
    GeminiTurns(ms);
    FoldSnoc(ms, Message(User, u));
  }

  /** A system message leaves the conversion exactly as it was. */
  lemma SystemDropped(ms: seq<Message>, s: string)
    ensures GeminiFold(ms + [Message(System, s)]) == GeminiFold(ms)
  {
    FoldSnoc(ms, Message(System, s));
  }

  /** The roles do not alternate: two user messages give two user entries, and
      a user message after an assistant message is folded into the assistant's
      entry. */
  lemma RolesDoNotAlternate(a: string, b: string)
    ensures GeminiFold([Message(User, a), Message(User, b)]).entries == [GeminiEntry(User, a), GeminiEntry(User, b)]
    ensures GeminiFold([Message(Assistant, a), Message(User, b)]).entries == [GeminiEntry(Assistant, a + "\n" + b)]
  {
    FoldSnoc([], Message(User, a));
    FoldSnoc([Message(User, a)], Message(User, b));
    assert [Message(User, a)] + [Message(User, b)] == [Message(User, a), Message(User, b)];
    FoldSnoc([], Message(Assistant, a));
    FoldSnoc([Message(Assistant, a)], Message(User, b));
    assert [Message(Assistant, a)] + [Message(User, b)] == [Message(Assistant, a), Message(User, b)];
  }

  /** Once the transcript holds an assistant reply, the current query does not
      reach Gemini as an entry of its own: it is appended to the last
      assistant entry. */
  lemma QueryMergedAfterAssistant(systemPrompt: string, history: seq<Message>, query: string)
    requires CountRole(history, Assistant) > 0
    ensures var es := GeminiFold(BuildMessages(systemPrompt, history, query)).entries;
            && |es| > 0 && es[|es| - 1].role == Assistant
            && query <= es[|es| - 1].part[|es[|es| - 1].part| - |query|..]
  {
    var ms := [Message(System, systemPrompt)] + history;
    assert BuildMessages(systemPrompt, history, query) == ms + [Message(User, query)];
    CountRoleAppend(ms, [Message(System, systemPrompt)], history);
    UserAfterAssistantMerges(ms, query);
    var es := GeminiFold(ms).entries;
    var part := es[|es| - 1].part + "\n" + query;
    assert part[|part| - |query|..] == query;
  }

  lemma {:induction false} CountRoleAppend(ms: seq<Message>, xs: seq<Message>, ys: seq<Message>)
    requires ms == xs + ys
    ensures CountRole(ms, Assistant) == CountRole(xs, Assistant) + CountRole(ys, Assistant)
    decreases |ys|
  {
    if |ys| > 0 {
      var front := ys[..|ys| - 1];
      assert ms[..|ms| - 1] == xs + front;
      CountRoleAppend(ms[..|ms| - 1], xs, front);
    } else {
      assert ms == xs;
    }
  }

  // ---------------------------------------------------------------------------
  // Choosing the model.

  const NoLlmKeyText := "Error: No LLM API key found. Please configure GROQ_API_KEY or GEMINI_API_KEY in secrets."
  const LlmErrorText := "Sorry, I encountered an error trying to process your request with the language model."

  /** What a client call gives: the reply text, or an exception. */
  datatype LlmOutcome = Replied(text: string) | Raised(detail: string)

  /** The client that is used: Groq when its key is set, else Gemini when its
      key is set, else none. */
  datatype Backend = GroqBackend | GeminiBackend | NoBackend

  function BackendFor(groqKey: Option<string>, geminiKey: Option<string>): (b: Backend)
    ensures b.GroqBackend? <==> Filled(groqKey)
    ensures b.GeminiBackend? <==> !Filled(groqKey) && Filled(geminiKey)
    ensures b.NoBackend? <==> !Filled(groqKey) && !Filled(geminiKey)
  {
    if Filled(groqKey) then GroqBackend else if Filled(geminiKey) then GeminiBackend else NoBackend
  }

  /** The reply the chat shows. Groq is sent the message list, Gemini the
      converted history; a Gemini reply is stripped, a Groq reply is not; any
      exception becomes the apology. */
  function LlmReply(groqKey: Option<string>, geminiKey: Option<string>, messages: seq<Message>,
                    groq: seq<Message> -> LlmOutcome, gemini: seq<GeminiEntry> -> LlmOutcome): (r: string)
    ensures BackendFor(groqKey, geminiKey).NoBackend? ==> r == NoLlmKeyText
    ensures BackendFor(groqKey, geminiKey).GroqBackend? ==>
              r == (if groq(messages).Replied? then groq(messages).text else LlmErrorText)
    ensures BackendFor(groqKey, geminiKey).GeminiBackend? ==>
              var out := gemini(GeminiFold(messages).entries);
              r == (if out.Replied? then Strip(out.text) else LlmErrorText)
  {
    match BackendFor(groqKey, geminiKey)
    case GroqBackend =>
      (match groq(messages)
       case Replied(text) => text
       case Raised(_) => LlmErrorText)
    case GeminiBackend =>
      (match gemini(GeminiFold(messages).entries)
       case Replied(text) => Strip(text)
       case Raised(_) => LlmErrorText)
    case NoBackend => NoLlmKeyText
  }

  /** Gemini's reply never reaches the chat with surrounding whitespace. */
  lemma GeminiReplyStripped(geminiKey: Option<string>, messages: seq<Message>,
                            groq: seq<Message> -> LlmOutcome, gemini: seq<GeminiEntry> -> LlmOutcome)
    requires Filled(geminiKey)
    requires gemini(GeminiFold(messages).entries).Replied?
    ensures var r := LlmReply(None, geminiKey, messages, groq, gemini);
            (|r| > 0 ==> !IsSpace(r[0]) && !IsSpace(r[|r| - 1]))
  {
    var t := gemini(GeminiFold(messages).entries).text;
    assert BackendFor(None, geminiKey) == GeminiBackend;
    assert LlmReply(None, geminiKey, messages, groq, gemini) == Strip(t);
    StripTrims(t);
  }

  /** Only the client that is chosen is consulted: with a Groq key the Gemini
      client and key make no difference, and without one the Groq client makes
      none. */
  lemma UnusedClientIgnored(groqKey: Option<string>, geminiKey: Option<string>, otherGeminiKey: Option<string>,
                            messages: seq<Message>,
                            groq: seq<Message> -> LlmOutcome, otherGroq: seq<Message> -> LlmOutcome,
                            gemini: seq<GeminiEntry> -> LlmOutcome, otherGemini: seq<GeminiEntry> -> LlmOutcome)
    ensures Filled(groqKey) ==>
              LlmReply(groqKey, geminiKey, messages, groq, gemini)
              == LlmReply(groqKey, otherGeminiKey, messages, groq, otherGemini)
    ensures !Filled(groqKey) ==>
              LlmReply(groqKey, geminiKey, messages, groq, gemini)
              == LlmReply(groqKey, geminiKey, messages, otherGroq, gemini)
  {
  }
}

=== FILE: chat_turn.dfy ===
/**
 One turn of the chat page: the user's prompt is added to the transcript,
 the fact-check API is consulted only when a claim topic was extracted, its
 response is classified and turned into the results text of the system
 prompt, the language model is asked with the earlier transcript, and its
 reply closes the turn. The extracted topic is an input (it is itself the
 reply of a language model), and so are the secrets, the HTTP layer and the
 two model clients.
 */
module ChatFlow {
  import opened Wrappers
  import opened Text
  import opened JsonValues
  import FactCheckApi
  import Gallery
  import ChatFormat
  import opened ChatLlm

  const NoClaimTopic := "NO_CLAIM"
  const LookupPageSize := 5
  const AskForClaimText := "Please provide a specific claim or topic to check."

  /** How the main flow reads the fact-check response. */
  datatype LookupOutcome =
    | LookupFailed(error: Json)
    | ClaimsFound(claims: Json)
    | NothingFound
    | UnexpectedResponse(typeName: string)

  /** The checks in the order the flow makes them: an "error" key, then a
      truthy "claims", then any other dict, and last anything that is not a
      dict. */
  function ClassifyResponse(resp: Json): (o: LookupOutcome)
    ensures o.LookupFailed? <==> resp.JObj? && "error" in resp.fields
    ensures o.LookupFailed? ==> o.error == resp.fields["error"]
    ensures o.ClaimsFound? <==>
              resp.JObj? && "error" !in resp.fields && "claims" in resp.fields && Truthy(resp.fields["claims"])
    ensures o.ClaimsFound? ==> o.claims == resp.fields["claims"]
    ensures o.NothingFound? <==>
              resp.JObj? && "error" !in resp.fields && !("claims" in resp.fields && Truthy(resp.fields["claims"]))
    ensures o.UnexpectedResponse? <==> !resp.JObj?
    ensures o.UnexpectedResponse? ==> o.typeName == TypeName(resp)
  {
    if resp.JObj? && "error" in resp.fields then LookupFailed(resp.fields["error"])
    else if resp.JObj? && "claims" in resp.fields && Truthy(resp.fields["claims"]) then ClaimsFound(resp.fields["claims"])
    else if resp.JObj? then NothingFound
    else UnexpectedResponse(TypeName(resp))
  }

  /** The formatter only reads claims it can: found claims are a list of
      claim-shaped records. */
  predicate OutcomeShaped(o: LookupOutcome) {
    o.ClaimsFound? ==> o.claims.JArr? && ChatFormat.AllShaped(o.claims.items)
  }

  /** `f"'{topic}'"` */
  function Quoted(topic: string): string {
    "'" + topic + "'"
  }

  const FailedLead := "Could not retrieve fact-check results for "

  /** The results text the system prompt embeds. Every text but the formatted
      claims names the topic in quotes, and an error text ends with the error
      itself. */
  function ResultsText(topic: string, o: LookupOutcome, repr: Json -> string): (t: string)
    requires OutcomeShaped(o)
    ensures o.ClaimsFound? ==> t == ChatFormat.FormatResults(o.claims.items, repr)
    ensures o.LookupFailed? ==> t == FailedLead + Quoted(topic) + " due to an error: " + Show(o.error, repr)
    ensures o.NothingFound? ==> t == "No specific fact-check results found for: " + Quoted(topic) + "."
    ensures o.UnexpectedResponse? ==>
              t == FailedLead + Quoted(topic) + " due to an unexpected API response type."
    ensures !o.ClaimsFound? ==> Contains(t, Quoted(topic))
    ensures o.LookupFailed? ==> EndsWith(t, Show(o.error, repr))
  {
    match o
    case LookupFailed(e) =>
      ErrorText(topic, Show(e, repr));
      FailedLead + Quoted(topic) + " due to an error: " + Show(e, repr)
    case ClaimsFound(claims) => ChatFormat.FormatResults(claims.items, repr)
    case NothingFound =>
      QuotedIn("No specific fact-check results found for: ", topic, ".");
      "No specific fact-check results found for: " + Quoted(topic) + "."
    case UnexpectedResponse(_) =>
      QuotedIn(FailedLead, topic, " due to an unexpected API response type.");
      FailedLead + Quoted(topic) + " due to an unexpected API response type."
  }

  /** A sentence that quotes the topic names it. */
  lemma QuotedIn(lead: string, topic: string, rest: string)
    ensures Contains(lead + Quoted(topic) + rest, Quoted(topic))
  {
    ContainsMiddle(lead, Quoted(topic), rest);
  }

  /** The error text names the topic and ends with the error. */
  lemma ErrorText(topic: string, error: string)
    ensures var t := FailedLead + Quoted(topic) + " due to an error: " + error;
            Contains(t, Quoted(topic)) && EndsWith(t, error)
  {
    var mid := " due to an error: " + error;
    QuotedIn(FailedLead, topic, mid);
    assert FailedLead + Quoted(topic) + mid == FailedLead + Quoted(topic) + " due to an error: " + error;
  }

  /** The warning shown above the reply: only for an error or a non-dict. */
  function WarningFor(topic: string, o: LookupOutcome, repr: Json -> string): (w: Option<string>)
    ensures w.Some? <==> o.LookupFailed? || o.UnexpectedResponse?
    ensures o.LookupFailed? ==> w == Some("Error fetching fact-check data for '" + topic + "': " + Show(o.error, repr))
    ensures o.UnexpectedResponse? ==>
              w == Some("Received an unexpected response type from the fact-check API for '" + topic + "': " + o.typeName)
  {
    match o
    case LookupFailed(e) => Some("Error fetching fact-check data for '" + topic + "': " + Show(e, repr))
    case UnexpectedResponse(typeName) =>
      Some("Received an unexpected response type from the fact-check API for '" + topic + "': " + typeName)
    case _ => None
  }

  /** Everything outside the page that one turn depends on. */
  datatype Environment = Environment(
    factCheckKey: Option<string>,
    groqKey: Option<string>,
    geminiKey: Option<string>,
    homeLanguage: Option<string>,
    http: FactCheckApi.Request -> FactCheckApi.HttpOutcome,
    groq: seq<Message> -> LlmOutcome,
    gemini: seq<GeminiEntry> -> LlmOutcome,
    repr: Json -> string)

  /** `st.session_state.get('home_language', 'en')` */
  function LookupLanguage(env: Environment): string {
    env.homeLanguage.ValueOr(Gallery.DefaultLanguage)
  }

  /** The fact-check call the flow makes for a topic. */
  function Lookup(env: Environment, topic: string): FactCheckApi.ApiCall {
    FactCheckApi.CallFactCheckApi(env.factCheckKey, Some(topic), LookupLanguage(env), LookupPageSize, None,
                                  env.http, env.repr)
  }

  /** The calls that can reach the formatter are the ones it can read. */
  predicate TurnShaped(env: Environment, topic: string) {
    topic != NoClaimTopic ==> OutcomeShaped(ClassifyResponse(Lookup(env, topic).result))
  }

  datatype TurnResult = TurnResult(
    call: Option<FactCheckApi.ApiCall>,
    warning: Option<string>,
    resultsText: string,
    llmMessages: seq<Message>,
    reply: string,
    transcript: seq<Message>)

  /** One turn for `prompt`, given the topic extracted from it. */
  function HandlePrompt(transcript: seq<Message>, prompt: string, topic: string, env: Environment): (r: TurnResult)
    requires TurnShaped(env, topic)
    ensures r.call.None? <==> topic == NoClaimTopic
    ensures r.call.Some? ==> r.call.value == Lookup(env, topic)
    ensures topic == NoClaimTopic ==> r.resultsText == AskForClaimText && r.warning.None?
    ensures r.call.Some? ==>
              var o := ClassifyResponse(r.call.value.result);
              && OutcomeShaped(o)
              && r.resultsText == ResultsText(topic, o, env.repr)
              && r.warning == WarningFor(topic, o, env.repr)
    ensures r.llmMessages == BuildMessages(SystemPrompt(prompt, r.resultsText), transcript, prompt)
    ensures r.reply == LlmReply(env.groqKey, env.geminiKey, r.llmMessages, env.groq, env.gemini)
    ensures r.transcript == transcript + [Message(User, prompt), Message(Assistant, r.reply)]
  {
    var withPrompt := transcript + [Message(User, prompt)];
    var call := if topic != NoClaimTopic then Some(Lookup(env, topic)) else None;
    var outcome := if call.Some? then Some(ClassifyResponse(call.value.result)) else None;
    var resultsText := if outcome.Some? then ResultsText(topic, outcome.value, env.repr) else AskForClaimText;
    var warning := if outcome.Some? then WarningFor(topic, outcome.value, env.repr) else None;
    // `st.session_state.chat_messages[:-1]`: the transcript before the prompt
    var earlier := withPrompt[..|withPrompt| - 1];
    assert earlier == transcript;
    var messages := BuildMessages(SystemPrompt(prompt, resultsText), earlier, prompt);
    var reply := LlmReply(env.groqKey, env.geminiKey, messages, env.groq, env.gemini);
    TurnResult(call, warning, resultsText, messages, reply, withPrompt + [Message(Assistant, reply)])
  }

  /** The lookup the flow makes: the extracted topic as the query, the home
      page's language (or English), five results, and no page token. */
  lemma LookupRequestShape(env: Environment, topic: string)
    requires Filled(env.factCheckKey) && topic != "" && topic != NoClaimTopic
    ensures var c := Lookup(env, topic);
            && c.request.Some?
            && c.request.value.params["query"] == JStr(topic)
            && c.request.value.params["languageCode"] == JStr(if env.homeLanguage.Some? then env.homeLanguage.value else "en")
            && c.request.value.params["pageSize"] == JNum(5)
            && "pageToken" !in c.request.value.params
  {
  }

  /** How the outcome kinds of the fact-check call are read by the flow: every
      failure is an error lookup, an empty body is "nothing found", and only a
      decoded body is classified on its own merits. */
  lemma LookupOutcomes(env: Environment, topic: string)
    ensures var c := Lookup(env, topic);
            var kind := if c.request.Some? then FactCheckApi.KindOf(env.http(c.request.value))
                        else FactCheckApi.ConfigurationError;
            var o := ClassifyResponse(c.result);
            && (kind.IsFailure() ==> o.LookupFailed? && o.error.JStr?)
            && (kind.ConfigurationError? ==> o == LookupFailed(JStr(FactCheckApi.MissingKeyMessage)))
            && (kind.EmptyPage? ==> o == NothingFound)
            && (kind.Decoded? ==> o == ClassifyResponse(kind.body))
  {
    FactCheckApi.CallOutcomes(env.factCheckKey, Some(topic), LookupLanguage(env), LookupPageSize, None,
                              env.http, env.repr);
  }

  /** A missing fact-check key is reported to the model and the user as such. */
  lemma MissingKeyTurn(transcript: seq<Message>, prompt: string, topic: string, env: Environment)
    requires !Filled(env.factCheckKey) && topic != NoClaimTopic
    ensures TurnShaped(env, topic)
    ensures var r := HandlePrompt(transcript, prompt, topic, env);
            && r.resultsText == FailedLead + Quoted(topic) + " due to an error: "
                                + FactCheckApi.MissingKeyMessage
            && r.warning == Some("Error fetching fact-check data for '" + topic + "': " + FactCheckApi.MissingKeyMessage)
  {
    var c := Lookup(env, topic);
    assert c.result == ErrorDict(FactCheckApi.MissingKeyMessage);
    assert ClassifyResponse(c.result) == LookupFailed(JStr(FactCheckApi.MissingKeyMessage));
  }

  /** The transcript the page keeps: user and assistant turns, alternating,
      starting with the user. */
  predicate Alternating(t: seq<Message>) {
    && |t| % 2 == 0
    && forall k :: 0 <= k < |t| ==> t[k].role == (if k % 2 == 0 then User else Assistant)
  }

  /** Every turn keeps the transcript alternating. */
  lemma TurnKeepsAlternating(transcript: seq<Message>, prompt: string, topic: string, env: Environment)
    requires TurnShaped(env, topic) && Alternating(transcript)
    ensures Alternating(HandlePrompt(transcript, prompt, topic, env).transcript)
  {
    var t := HandlePrompt(transcript, prompt, topic, env).transcript;
    forall k | 0 <= k < |t| ensures t[k].role == (if k % 2 == 0 then User else Assistant) {
      if k < |transcript| {
        assert t[k] == transcript[k];
      }
    }
  }

  /** A non-empty alternating transcript holds an assistant turn. */
  lemma {:induction false} AlternatingHasAssistant(t: seq<Message>)
    requires Alternating(t) && |t| > 0
    ensures CountRole(t, Assistant) > 0
  {
    var front := t[..|t| - 1];
    assert t[|t| - 1].role == Assistant;
    assert CountRole(t, Assistant) == CountRole(front, Assistant) + 1;
  }

  /** From the second turn on, the Gemini client never sees the prompt as an
      entry of its own: it is merged into the last assistant reply's entry. */
  lemma LaterPromptsMergedForGemini(transcript: seq<Message>, prompt: string, topic: string, env: Environment)
    requires TurnShaped(env, topic) && Alternating(transcript) && |transcript| > 0
    ensures var es := GeminiFold(HandlePrompt(transcript, prompt, topic, env).llmMessages).entries;
            && |es| > 0 && es[|es| - 1].role == Assistant
            && prompt <= es[|es| - 1].part[|es[|es| - 1].part| - |prompt|..]
  {
    var r := HandlePrompt(transcript, prompt, topic, env);
    AlternatingHasAssistant(transcript);
    QueryMergedAfterAssistant(SystemPrompt(prompt, r.resultsText), transcript, prompt);
  }
}

=== FILE: claim_card.dfy ===
/**
 `display_claim`: the card for one claim. It picks a thumbnail by an ordered
 first-match-wins chain over the review's metadata, falls back to scraping
 the review page's `og:image` and then `twitter:image` tags, and renders the
 rating, publisher, review date and review link with their defaults.
 Everything the card asks of libraries (the page fetch, the two regular
 expressions, ISO date parsing and `strftime`, the repr of lists and dicts)
 is a field of `Platform`.
 */
module ClaimCard {
  import opened Wrappers
  import opened Text
  import opened JsonValues

  /** `requests.get(review_url, timeout=10)` */
  const FetchTimeoutSeconds := 10
  const PlaceholderDate := "N/A"

  datatype PageRequest = PageRequest(url: string, timeoutSeconds: int)

  /** What fetching the review page gives: its text, a
      `requests.exceptions.RequestException` (including the HTTPError of
      `raise_for_status`), or any other exception. */
  datatype PageFetch = Page(html: string) | FetchFailed(detail: string) | ProcessingFailed(detail: string)

  /** The fields of a parsed `datetime` the card uses. */
  datatype DateTime = DateTime(year: int, month: int, day: int, hour: int, minute: int)

  datatype Platform = Platform(
    fetch: PageRequest -> PageFetch,
    /** the `og:image` pattern's first group, if it matches */
    ogImage: string -> Option<string>,
    /** the `twitter:image` pattern's first group, if it matches */
    twitterImage: string -> Option<string>,
    /** `datetime.fromisoformat`, None for a ValueError */
    parseIso: string -> Option<DateTime>,
    /** `strftime("%A, <day> %B %Y")`, given the day already suffixed */
    formatDate: (DateTime, string) -> string,
    /** `strftime("%I:%M%p")` */
    formatTime: DateTime -> string,
    repr: Json -> string)

  // ---------------------------------------------------------------------------
  // Thumbnail from the review's metadata

  /** `info.get('url')` for a dict, `info[0].get('url')` for a non-empty list
      whose first element is a dict, and otherwise the value already held. */
  function ImageUrlOr(info: Json, keep: Json): Json {
    match info
    case JObj(m) => Get(m, "url")
    case JArr(xs) => if |xs| > 0 && xs[0].JObj? then Get(xs[0].fields, "url") else keep
    case _ => keep
  }

  /** The `reviewRating` step: its `imageUrl`, else its `image.url`. */
  function RatingThumbnail(rating: Json, keep: Json): Json {
    if !rating.JObj? then keep
    else
      var byUrl := Get(rating.fields, "imageUrl");
      if Truthy(byUrl) then byUrl
      else
        var image := Get(rating.fields, "image");
        if image.JObj? then Get(image.fields, "url") else byUrl
  }

  /** The metadata steps in the order the card runs them: each later step runs
      only while the value found so far is falsy. */
  function MetadataThumbnail(review: map<string, Json>): (r: Json)
    ensures Truthy(r) ==> r in ThumbnailSources(review)
  {
    var fromImage := ImageUrlOr(Get(review, "image"), JNull);
    var fromRating :=
      if Truthy(fromImage) then fromImage
      else RatingThumbnail(GetOr(review, "reviewRating", EmptyObj), fromImage);
    if Truthy(fromRating) then fromRating
    else
      var publisher := GetOr(review, "publisher", EmptyObj);
      if publisher.JObj? then ImageUrlOr(Get(publisher.fields, "image"), fromRating) else fromRating
  }

  /** The four metadata sources, each read on its own, in trust order:
      `image`, `reviewRating.imageUrl`, `reviewRating.image.url`,
      `publisher.image`. */
  function ThumbnailSources(review: map<string, Json>): seq<Json> {
    var rating := Get(review, "reviewRating");
    var publisher := Get(review, "publisher");
    [ ImageUrlOr(Get(review, "image"), JNull),
      if rating.JObj? then Get(rating.fields, "imageUrl") else JNull,
      if rating.JObj? && Get(rating.fields, "image").JObj? then Get(Get(rating.fields, "image").fields, "url") else JNull,
      if publisher.JObj? then ImageUrlOr(Get(publisher.fields, "image"), JNull) else JNull ]
  }

  /** The first truthy value of a sequence. */
  function FirstTruthy(cs: seq<Json>): (r: Option<Json>)
    ensures r.None? <==> forall i :: 0 <= i < |cs| ==> !Truthy(cs[i])
    ensures r.Some? ==> exists k :: 0 <= k < |cs| && cs[k] == r.value && Truthy(cs[k])
                                   && forall i :: 0 <= i < k ==> !Truthy(cs[i])
  {
    if |cs| == 0 then None
    else if Truthy(cs[0]) then Some(cs[0])
    else
      var r := FirstTruthy(cs[1..]);
      assert forall i :: 1 <= i < |cs| ==> cs[i] == cs[1..][i - 1];
      r
  }

  lemma FirstTruthyOfFour(a: Json, b: Json, c: Json, d: Json)
    ensures FirstTruthy([a, b, c, d]) ==
              if Truthy(a) then Some(a) else if Truthy(b) then Some(b)
              else if Truthy(c) then Some(c) else if Truthy(d) then Some(d) else None
  {
    assert [a, b, c, d][1..] == [b, c, d];
    assert [b, c, d][1..] == [c, d];
    assert [c, d][1..] == [d];
    assert [d][1..] == [];
    assert FirstTruthy([d]) == if Truthy(d) then Some(d) else FirstTruthy([]);
    assert FirstTruthy([c, d]) == if Truthy(c) then Some(c) else FirstTruthy([d]);
    assert FirstTruthy([b, c, d]) == if Truthy(b) then Some(b) else FirstTruthy([c, d]);
    assert FirstTruthy([a, b, c, d]) == if Truthy(a) then Some(a) else FirstTruthy([b, c, d]);
  }

  /** The `reviewRating` step, run on a falsy value, finds the first truthy one
      of its two sources. */
  lemma RatingStepMatchesSources(review: map<string, Json>, keep: Json)
    requires !Truthy(keep)
    ensures var t := RatingThumbnail(GetOr(review, "reviewRating", EmptyObj), keep);
            var cs := ThumbnailSources(review);
            && (Truthy(t) <==> Truthy(cs[1]) || Truthy(cs[2]))
            && (Truthy(cs[1]) ==> t == cs[1])
            && (!Truthy(cs[1]) && Truthy(cs[2]) ==> t == cs[2])
  {
  }

  /** The publisher step, run on a falsy value, finds its source's value. */
  lemma PublisherStepMatchesSource(review: map<string, Json>, keep: Json)
    requires !Truthy(keep)
    ensures var publisher := GetOr(review, "publisher", EmptyObj);
            var t := if publisher.JObj? then ImageUrlOr(Get(publisher.fields, "image"), keep) else keep;
            var cs := ThumbnailSources(review);
            && (Truthy(t) <==> Truthy(cs[3]))
            && (Truthy(t) ==> t == cs[3])
  {
  }

  /** The chain as written finds a thumbnail exactly when one of the sources
      holds one, and then it is the first such source's. */
  lemma ThumbnailOrder(review: map<string, Json>)
    ensures Truthy(MetadataThumbnail(review)) <==> FirstTruthy(ThumbnailSources(review)).Some?
    ensures Truthy(MetadataThumbnail(review)) ==>
              MetadataThumbnail(review) == FirstTruthy(ThumbnailSources(review)).value
  {
    var cs := ThumbnailSources(review);
    FirstTruthyOfFour(cs[0], cs[1], cs[2], cs[3]);
    assert cs == [cs[0], cs[1], cs[2], cs[3]];
    var fromImage := ImageUrlOr(Get(review, "image"), JNull);
    assert fromImage == cs[0];
    if !Truthy(fromImage) {
      RatingStepMatchesSources(review, fromImage);
      var fromRating := RatingThumbnail(GetOr(review, "reviewRating", EmptyObj), fromImage);
      if !Truthy(fromRating) {
        PublisherStepMatchesSource(review, fromRating);
      }
    }
  }

  // ---------------------------------------------------------------------------
  // Thumbnail from the review page

  datatype Thumbnail = Thumbnail(url: Json, fetched: Option<PageRequest>, warning: Option<string>)

  /** A review whose "url", when truthy, is a string (the warning texts
      concatenate it). */
  predicate UrlShaped(review: map<string, Json>) {
    Truthy(Get(review, "url")) ==> Get(review, "url").JStr?
  }

  /** `og:image` first, then `twitter:image`; a matching tag wins even when its
      content is empty. */
  function ScrapedThumbnail(html: string, p: Platform, keep: Json): (r: Json)
    ensures p.ogImage(html).Some? ==> r == JStr(p.ogImage(html).value)
    ensures p.ogImage(html).None? && p.twitterImage(html).Some? ==> r == JStr(p.twitterImage(html).value)
    ensures p.ogImage(html).None? && p.twitterImage(html).None? ==> r == keep
  {
    match p.ogImage(html)
    case Some(u) => JStr(u)
    case None =>
      match p.twitterImage(html)
      case Some(u) => JStr(u)
      case None => keep
  }

  function ResolveThumbnail(review: map<string, Json>, p: Platform): (t: Thumbnail)
    requires UrlShaped(review)
    ensures t.fetched.Some? <==> !Truthy(MetadataThumbnail(review)) && Truthy(Get(review, "url"))
    ensures t.fetched.None? ==> t.url == MetadataThumbnail(review) && t.warning.None?
    ensures t.fetched.Some? ==> t.fetched.value == PageRequest(Get(review, "url").s, FetchTimeoutSeconds)
    ensures t.fetched.Some? && p.fetch(t.fetched.value).Page? ==>
              var html := p.fetch(t.fetched.value).html;
              && t.warning.None?
              && (p.ogImage(html).Some? ==> t.url == JStr(p.ogImage(html).value))
              && (p.ogImage(html).None? && p.twitterImage(html).Some? ==> t.url == JStr(p.twitterImage(html).value))
              && (p.ogImage(html).None? && p.twitterImage(html).None? ==> !Truthy(t.url))
    ensures t.fetched.Some? && !p.fetch(t.fetched.value).Page? ==> !Truthy(t.url) && t.warning.Some?
    ensures t.fetched.Some? && p.fetch(t.fetched.value).FetchFailed? ==>
              t.warning == Some("Could not fetch review URL (" + t.fetched.value.url + ") for thumbnail: "
                                + p.fetch(t.fetched.value).detail)
    ensures t.fetched.Some? && p.fetch(t.fetched.value).ProcessingFailed? ==>
              t.warning == Some("Error processing review URL (" + t.fetched.value.url + ") for thumbnail: "
                                + p.fetch(t.fetched.value).detail)
  {
    var meta := MetadataThumbnail(review);
    var reviewUrl := Get(review, "url");
    if !Truthy(meta) && Truthy(reviewUrl) then
      var request := PageRequest(reviewUrl.s, FetchTimeoutSeconds);
      match p.fetch(request)
      case Page(html) =>
        Thumbnail(ScrapedThumbnail(html, p, meta), Some(request), None)
      case FetchFailed(detail) =>
        Thumbnail(meta, Some(request),
                  Some("Could not fetch review URL (" + reviewUrl.s + ") for thumbnail: " + detail))
      case ProcessingFailed(detail) =>
        Thumbnail(meta, Some(request),
                  Some("Error processing review URL (" + reviewUrl.s + ") for thumbnail: " + detail))
    else
      Thumbnail(meta, None, None)
  }

  // ---------------------------------------------------------------------------
  // Review date

  /** `get_day_with_suffix`. Python's `day % 10` floors; for the positive
      divisor 10 it agrees with Dafny's `%`. */
  function DaySuffix(day: int): (s: string)
    ensures s in {"st", "nd", "rd", "th"}
    ensures 11 <= day <= 13 ==> s == "th"
  {
    if 11 <= day <= 13 then "th"
    else if day % 10 == 1 then "st"
    else if day % 10 == 2 then "nd"
    else if day % 10 == 3 then "rd"
    else "th"
  }

  function DayWithSuffix(day: int): string {
    IntToString(day) + DaySuffix(day)
  }

  /** Over the days a date can have, the suffix is the English ordinal one. */
  lemma DaySuffixTable(day: int)
    requires 1 <= day <= 31
    ensures DaySuffix(day) == "st" <==> day == 1 || day == 21 || day == 31
    ensures DaySuffix(day) == "nd" <==> day == 2 || day == 22
    ensures DaySuffix(day) == "rd" <==> day == 3 || day == 23
    ensures DaySuffix(day) == "th" <==> 4 <= day <= 20 || 24 <= day <= 30
  {
  }

  /** The suffixed day is the day's decimal digits followed by two letters;
      the digits read back as the day. */
  lemma DayWithSuffixDigits(day: int)
    requires day >= 0
    ensures var s := DayWithSuffix(day);
            && |s| >= 3
            && s[..|s| - 2] == NatToString(day)
            && DigitsValue(s[..|s| - 2]) == day
            && !IsDigit(s[|s| - 2])
  {
    var s := DayWithSuffix(day);
    assert s[..|s| - 2] == NatToString(day);
    NatToStringRoundTrip(day);
  }

  datatype DateText = DateText(date: string, time: string)

  /** The review date: "N/A" when absent, the text verbatim with no time when
      it does not parse, and the formatted date and lower-cased time when it
      does (after `'Z'` is replaced by `'+00:00'`). */
  function ReviewDateText(value: Json, p: Platform): (d: DateText)
    requires Truthy(value) ==> value.JStr?
    ensures !Truthy(value) ==> d == DateText(PlaceholderDate, "")
    ensures Truthy(value) && p.parseIso(ReplaceChar(value.s, 'Z', "+00:00")).None? ==>
              d == DateText(value.s, "")
    ensures Truthy(value) && p.parseIso(ReplaceChar(value.s, 'Z', "+00:00")).Some? ==>
              var dt := p.parseIso(ReplaceChar(value.s, 'Z', "+00:00")).value;
              d.date == p.formatDate(dt, DayWithSuffix(dt.day)) && d.time == LowerAscii(p.formatTime(dt))
  {
    if !Truthy(value) then DateText(PlaceholderDate, "")
    else
      match p.parseIso(ReplaceChar(value.s, 'Z', "+00:00"))
      case None => DateText(value.s, "")
      case Some(dt) => DateText(p.formatDate(dt, DayWithSuffix(dt.day)), LowerAscii(p.formatTime(dt)))
  }

  /** The "Review Date" line, with " at <time>" only when there is a time. */
  function DateLine(d: DateText): (line: string)
    ensures "**Review Date:** " + d.date <= line
    ensures line == "**Review Date:** " + d.date <==> |d.time| == 0
    ensures |d.time| > 0 ==> EndsWith(line, " at " + d.time)
  {
    if |d.time| > 0 then "**Review Date:** " + d.date + " at " + d.time
    else "**Review Date:** " + d.date
  }

  // ---------------------------------------------------------------------------
  // The card

  datatype ThumbCell = Image(src: string, alt: string) | Placeholder
  datatype CardItem = Markdown(text: string) | LinkButton(caption: string, url: string)
  datatype Card = Card(thumb: ThumbCell, items: seq<CardItem>, fetched: Option<PageRequest>, warning: Option<string>)

  /** The review shapes `display_claim` reads without raising: a dict whose
      publisher, when present, is a dict, and whose date and url, when truthy,
      are strings. */
  predicate ReviewShaped(review: Json) {
    && review.JObj?
    && ("publisher" in review.fields ==> review.fields["publisher"].JObj?)
    && (Truthy(Get(review.fields, "reviewDate")) ==> Get(review.fields, "reviewDate").JStr?)
    && UrlShaped(review.fields)
  }

  /** A claim dict whose `claimReview`, when truthy, is a list starting with a
      well-shaped review. */
  predicate ClaimShaped(claim: Json) {
    && claim.JObj?
    && var reviews := GetOr(claim.fields, "claimReview", JArr([]));
       Truthy(reviews) ==> reviews.JArr? && ReviewShaped(reviews.items[0])
  }

  function DisplayClaim(claim: Json, p: Platform): (c: Card)
    requires ClaimShaped(claim)
    ensures var reviews := GetOr(claim.fields, "claimReview", JArr([]));
            && (!Truthy(reviews) ==>
                  c == Card(Placeholder,
                            [Markdown(Show(GetOr(claim.fields, "text", JStr("N/A")), p.repr)),
                             Markdown("No review details available.")],
                            None, None))
            && (Truthy(reviews) ==>
                  var review := reviews.items[0].fields;
                  var publisher := GetOr(review, "publisher", EmptyObj).fields;
                  var thumb := ResolveThumbnail(review, p);
                  && |c.items| == 5
                  && c.items[0] == Markdown(Show(GetOr(claim.fields, "text", JStr("N/A")), p.repr))
                  && c.fetched == thumb.fetched && c.warning == thumb.warning
                  && (c.thumb.Image? <==> Truthy(thumb.url))
                  && (c.thumb.Image? ==>
                        var name := GetOr(publisher, "name", JStr("N/A"));
                        c.thumb == Image(Show(thumb.url, p.repr),
                                         if Truthy(name) then Show(name, p.repr) else "Review Image"))
                  && c.items[1] == Markdown("**Rating:** " + Show(GetOr(review, "textualRating", JStr("N/A")), p.repr))
                  && c.items[2] == Markdown("**Reviewed by:** " + Show(GetOr(publisher, "name", JStr("N/A")), p.repr)
                                            + " (" + Show(GetOr(publisher, "site", JStr("N/A")), p.repr) + ")")
                  && c.items[3] == Markdown(DateLine(ReviewDateText(Get(review, "reviewDate"), p)))
                  && c.items[4] == (if Truthy(Get(review, "url")) then LinkButton("Read Review", Get(review, "url").s)
                                    else Markdown("Review URL: N/A")))
  {
    var text := Markdown(Show(GetOr(claim.fields, "text", JStr("N/A")), p.repr));
    var reviews := GetOr(claim.fields, "claimReview", JArr([]));
    if !Truthy(reviews) then
      Card(Placeholder, [text, Markdown("No review details available.")], None, None)
    else
      var review := reviews.items[0].fields;
      var publisher := GetOr(review, "publisher", EmptyObj).fields;
      var name := GetOr(publisher, "name", JStr("N/A"));
      var site := GetOr(publisher, "site", JStr("N/A"));
      var rating := GetOr(review, "textualRating", JStr("N/A"));
      var reviewUrl := Get(review, "url");
      var thumb := ResolveThumbnail(review, p);
      var cell :=
        if Truthy(thumb.url) then Image(Show(thumb.url, p.repr), if Truthy(name) then Show(name, p.repr) else "Review Image")
        else Placeholder;
      var link := if Truthy(reviewUrl) then LinkButton("Read Review", reviewUrl.s) else Markdown("Review URL: N/A");
      Card(cell,
           [text,
            Markdown("**Rating:** " + Show(rating, p.repr)),
            Markdown("**Reviewed by:** " + Show(name, p.repr) + " (" + Show(site, p.repr) + ")"),
            Markdown(DateLine(ReviewDateText(Get(review, "reviewDate"), p))),
            link],
           thumb.fetched, thumb.warning)
  }

  /** When the review's metadata holds a thumbnail, the card shows the first
      one in trust order, and no page is fetched. */
  lemma CardShowsFirstSource(claim: Json, p: Platform)
    requires ClaimShaped(claim)
    requires Truthy(GetOr(claim.fields, "claimReview", JArr([])))
    requires FirstTruthy(ThumbnailSources(claim.fields["claimReview"].items[0].fields)).Some?
    ensures var review := claim.fields["claimReview"].items[0].fields;
            var c := DisplayClaim(claim, p);
            && c.fetched.None?
            && c.thumb.Image?
            && c.thumb.src == Show(FirstTruthy(ThumbnailSources(review)).value, p.repr)
  {
    var review := claim.fields["claimReview"].items[0].fields;
    ThumbnailOrder(review);
  }

  /** A review without a rating, publisher or date shows each as "N/A". */
  lemma CardDefaults(claim: Json, p: Platform)
    requires ClaimShaped(claim)
    requires Truthy(GetOr(claim.fields, "claimReview", JArr([])))
    requires var review := claim.fields["claimReview"].items[0].fields;
             "textualRating" !in review && "publisher" !in review && "reviewDate" !in review
    ensures DisplayClaim(claim, p).items[1] == Markdown("**Rating:** N/A")
    ensures DisplayClaim(claim, p).items[2] == Markdown("**Reviewed by:** N/A (N/A)")
    ensures DisplayClaim(claim, p).items[3] == Markdown("**Review Date:** N/A")
  {
  }
}

=== FILE: fact_check_api.dfy ===
/**
 `call_fact_check_api`: one query to the Google Fact Check Tools claim
 search. The HTTP layer is a parameter: `http` maps the request the function
 builds to the outcome the `requests` library would report for it. The
 function returns the request it issued (if any) together with its result,
 so that "no request without a key" and "exactly one request otherwise"
 can be stated.
 */
module FactCheckApi {
  import opened Wrappers
  import opened Text
  import opened JsonValues

  const Endpoint := "https://factchecktools.googleapis.com/v1alpha1/claims:search"
  const MissingKeyMessage := "API Key missing"
  /** How much of an undecodable body the error message quotes. */
  const TextHeadLimit := 500

  datatype Request = Request(url: string, params: map<string, Json>)

  /** What `requests.get(...)` gives back or raises. */
  datatype HttpOutcome =
      /** A response arrived: its raw bytes `content`, their decoding `text`,
          and `body`, what `response.json()` decodes, or None when it raises a
          decode error whose text is `decodeError`. The bytes and the text are
          given separately: a body that is only a byte-order mark has bytes
          but decodes to no text. */
    | Response(status: int, reason: string, content: seq<bv8>, text: string, body: Option<Json>,
               decodeError: string)
      /** `requests.exceptions.RequestException` (connection, timeout, ...) */
    | RequestFailed(detail: string)
      /** any other exception, with its type name */
    | Crashed(typeName: string, detail: string)

  datatype ApiCall = ApiCall(request: Option<Request>, result: Json)

  predicate TokenGiven(pageToken: Option<Json>) {
    pageToken.Some? && Truthy(pageToken.value)
  }

  /** `response.raise_for_status()` raises for 4xx and 5xx statuses. */
  predicate IsHttpError(status: int) {
    400 <= status < 600
  }

  /** The query parameters: always the key, language and page size; the query
      and page token only when they are truthy. */
  function Params(apiKey: string, query: Option<string>, languageCode: string, pageSize: int,
                  pageToken: Option<Json>): (p: map<string, Json>)
    ensures p.Keys == {"key", "languageCode", "pageSize"}
                      + (if Filled(query) then {"query"} else {})
                      + (if TokenGiven(pageToken) then {"pageToken"} else {})
    ensures "key" in p && p["key"] == JStr(apiKey)
    ensures "languageCode" in p && p["languageCode"] == JStr(languageCode)
    ensures "pageSize" in p && p["pageSize"] == JNum(pageSize)
    ensures "query" in p ==> Filled(query) && p["query"] == JStr(query.value)
    ensures "pageToken" in p ==> TokenGiven(pageToken) && p["pageToken"] == pageToken.value
  {
    var base := map["key" := JStr(apiKey), "languageCode" := JStr(languageCode), "pageSize" := JNum(pageSize)];
    var withQuery := if Filled(query) then base["query" := JStr(query.value)] else base;
    if TokenGiven(pageToken) then withQuery["pageToken" := pageToken.value] else withQuery
  }

  /** `response.text[:500]` */
  function TextHead(text: string): string {
    if |text| <= TextHeadLimit then text else text[..TextHeadLimit]
  }

  /** The text of the HTTPError branch: status, reason, then the decoded error
      body or, when it does not decode, the raw text. */
  function HttpErrorDetail(status: int, reason: string, text: string, body: Option<Json>,
                           repr: Json -> string): string
  {
    "HTTP Error: " + IntToString(status) + " " + reason + " - "
    + (if body.Some? then Show(body.value, repr) else text)
  }

  /** What the `try` block returns for the outcome of the one request. */
  function ResultOf(outcome: HttpOutcome, repr: Json -> string): (r: Json)
    ensures KindOf(outcome).IsFailure() ==>
              r.JObj? && r.fields.Keys == {"error"} && r.fields["error"].JStr?
    ensures KindOf(outcome).Decoded? ==> r == KindOf(outcome).body
  {
    match outcome
    case Response(status, reason, content, text, body, decodeError) =>
      if IsHttpError(status) then
        ErrorDict(HttpErrorDetail(status, reason, text, body, repr))
      else if |content| == 0 then
        JObj(map["claims" := JArr([])])
      else if body.Some? then
        body.value
      else
        ErrorDict("API JSON Decode Error: " + decodeError + ". Response text: " + TextHead(text) + "...")
    case RequestFailed(detail) =>
      ErrorDict("API Request Error: " + detail)
    case Crashed(typeName, detail) =>
      ErrorDict("An unexpected error occurred in API call: " + typeName + " - " + detail)
  }

  /** The whole call: the key check comes before any request is built. */
  function CallFactCheckApi(apiKey: Option<string>, query: Option<string>, languageCode: string,
                            pageSize: int, pageToken: Option<Json>,
                            http: Request -> HttpOutcome, repr: Json -> string): (c: ApiCall)
    ensures c.request.None? <==> !Filled(apiKey)
    ensures !Filled(apiKey) ==> c.result == ErrorDict(MissingKeyMessage)
    ensures c.request.Some? ==>
              && c.request.value.url == Endpoint
              && c.request.value.params == Params(apiKey.value, query, languageCode, pageSize, pageToken)
              && c.result == ResultOf(http(c.request.value), repr)
  {
    if !Filled(apiKey) then
      ApiCall(None, ErrorDict(MissingKeyMessage))
    else
      var request := Request(Endpoint, Params(apiKey.value, query, languageCode, pageSize, pageToken));
      ApiCall(Some(request), ResultOf(http(request), repr))
  }

  /** The failure taxonomy of the call, read off the key and the outcome alone. */
  datatype CallKind =
    | ConfigurationError
    | HttpError(status: int)
    | TransportError
    | DecodeError
    | UnexpectedError
    | EmptyPage
    | Decoded(body: Json)
  {
    predicate IsFailure() {
      !(EmptyPage? || Decoded?)
    }
  }

  /** The kind of a call that got as far as issuing its request. */
  function KindOf(outcome: HttpOutcome): CallKind {
    match outcome
      case RequestFailed(_) => TransportError
      case Crashed(_, _) => UnexpectedError
      case Response(status, _, content, _, body, _) =>
        if IsHttpError(status) then HttpError(status)
        else if content == [] then EmptyPage
        else if body.None? then DecodeError
        else Decoded(body.value)
  }

  /** The message a failure result carries. */
  predicate IsErrorWith(result: Json, prefix: string) {
    && result.JObj?
    && "error" in result.fields
    && result.fields["error"].JStr?
    && prefix <= result.fields["error"].s
  }

  /** Every outcome ends in a value: each failure kind becomes a dict whose
      "error" text names the kind, an empty body is an empty page of claims,
      and a decoded body is passed through unchanged. */
  lemma CallOutcomes(apiKey: Option<string>, query: Option<string>, languageCode: string,
                     pageSize: int, pageToken: Option<Json>,
                     http: Request -> HttpOutcome, repr: Json -> string)
    ensures var c := CallFactCheckApi(apiKey, query, languageCode, pageSize, pageToken, http, repr);
            var kind := if c.request.Some? then KindOf(http(c.request.value)) else ConfigurationError;
            && (kind.IsFailure() ==> IsErrorWith(c.result, ""))
            && (kind.ConfigurationError? ==> c.result == ErrorDict(MissingKeyMessage))
            && (kind.HttpError? ==> IsErrorWith(c.result, "HTTP Error: " + IntToString(kind.status) + " "))
            && (kind.TransportError? ==> IsErrorWith(c.result, "API Request Error: "))
            && (kind.DecodeError? ==> IsErrorWith(c.result, "API JSON Decode Error: "))
            && (kind.UnexpectedError? ==> IsErrorWith(c.result, "An unexpected error occurred in API call: "))
            && (kind.EmptyPage? ==> c.result == JObj(map["claims" := JArr([])]))
            && (kind.Decoded? ==> c.result == kind.body)
  {
    var c := CallFactCheckApi(apiKey, query, languageCode, pageSize, pageToken, http, repr);
    if c.request.Some? {
      ResultOfKind(http(c.request.value), repr);
    }
  }

  /** The same taxonomy for one outcome of the request. */
  lemma ResultOfKind(outcome: HttpOutcome, repr: Json -> string)
    ensures var kind := KindOf(outcome);
            var result := ResultOf(outcome, repr);
            && (kind.IsFailure() ==> IsErrorWith(result, ""))
            && (kind.HttpError? ==> IsErrorWith(result, "HTTP Error: " + IntToString(kind.status) + " "))
            && (kind.TransportError? ==> IsErrorWith(result, "API Request Error: "))
            && (kind.DecodeError? ==> IsErrorWith(result, "API JSON Decode Error: "))
            && (kind.UnexpectedError? ==> IsErrorWith(result, "An unexpected error occurred in API call: "))
            && (kind.EmptyPage? ==> result == JObj(map["claims" := JArr([])]))
            && (kind.Decoded? ==> result == kind.body)
  {
    match outcome
    case Response(status, reason, content, text, body, decodeError) =>
      if IsHttpError(status) {
        var head := "HTTP Error: " + IntToString(status) + " ";
        var msg := HttpErrorDetail(status, reason, text, body, repr);
        assert msg == head + (reason + " - " + (if body.Some? then Show(body.value, repr) else text));
      }
    case RequestFailed(detail) =>
    case Crashed(typeName, detail) =>
  }

  /** A result that is not a dict can only be a decoded body that is not a dict. */
  lemma NonDictOnlyFromBody(apiKey: Option<string>, query: Option<string>, languageCode: string,
                            pageSize: int, pageToken: Option<Json>,
                            http: Request -> HttpOutcome, repr: Json -> string)
    ensures var c := CallFactCheckApi(apiKey, query, languageCode, pageSize, pageToken, http, repr);
            !c.result.JObj? ==>
              && c.request.Some?
              && KindOf(http(c.request.value)) == Decoded(c.result)
  {
  }
}

=== FILE: gallery.dfy ===
/**
 The home page's gallery of recent fact checks: the page-token history that
 drives the "Previous Page" / "Next Page" buttons, the language filter that
 resets it, the choice of the notice shown above the cards, and the bounds
 check on the claim selected for the detail view. The Streamlit session
 state is the explicit value `Pager`; each callback is a function from the
 old value to the new.
 */
module Gallery {
  import opened Wrappers
  import opened JsonValues
  import Text
  import FactCheckApi

  const DefaultLanguage := "en"
  const GalleryQuery := "India"
  const GalleryPageSize := 10

  /** `home_language`, `home_page_token` and `home_page_history`. A history entry
      is None for the first page and otherwise a token the API handed back. */
  datatype Pager = Pager(language: string, token: Option<Json>, history: seq<Option<Json>>)

  /** The invariant the callbacks keep: a non-empty history that starts at the
      first page, whose other entries are all truthy tokens, and whose last
      entry is the current token. */
  predicate Valid(g: Pager) {
    && |g.history| >= 1
    && g.history[0] == None
    && g.token == g.history[|g.history| - 1]
    && forall i :: 1 <= i < |g.history| ==> g.history[i].Some? && Truthy(g.history[i].value)
  }

  /** How many "Next" steps the current page is away from the first. */
  function PageIndex(g: Pager): int {
    |g.history| - 1
  }

  /** The state a new session starts in. */
  function Init(): (g: Pager)
    ensures Valid(g) && PageIndex(g) == 0 && g.token.None?
  {
    Pager(DefaultLanguage, None, [None])
  }

  /** Choosing a different language goes back to the first page, whatever the
      history was; choosing the same one changes nothing. */
  function SelectLanguage(g: Pager, lang: string): (h: Pager)
    ensures lang != g.language ==> Valid(h) && PageIndex(h) == 0 && h.token.None? && h.language == lang
    ensures lang == g.language ==> h == g
  {
    if lang != g.language then Pager(lang, None, [None]) else g
  }

  /** The "Previous Page" button is enabled only past the first page. */
  predicate CanGoPrevious(g: Pager) {
    |g.history| > 1
  }

  /** The "Next Page" button is enabled only for a truthy `nextPageToken`. */
  predicate CanGoNext(offered: Json) {
    Truthy(offered)
  }

  /** `go_to_previous_page`: pop, and make the new last entry current. */
  function GoPrevious(g: Pager): (h: Pager)
    requires CanGoPrevious(g)
    ensures h.history == g.history[..|g.history| - 1]
    ensures h.language == g.language
    ensures Valid(g) ==> Valid(h) && PageIndex(h) == PageIndex(g) - 1
  {
    var history := g.history[..|g.history| - 1];
    Pager(g.language, history[|history| - 1], history)
  }

  /** `go_to_next_page`: push the offered token and make it current. */
  function GoNext(g: Pager, offered: Json): (h: Pager)
    requires CanGoNext(offered)
    ensures h.history == g.history + [Some(offered)]
    ensures h.token == Some(offered) && h.language == g.language
    ensures Valid(g) ==> Valid(h) && PageIndex(h) == PageIndex(g) + 1
  {
    Pager(g.language, Some(offered), g.history + [Some(offered)])
  }

  /** Going forward and then back restores the exact prior state. */
  lemma PreviousUndoesNext(g: Pager, offered: Json)
    requires Valid(g) && CanGoNext(offered)
    ensures CanGoPrevious(GoNext(g, offered))
    ensures GoPrevious(GoNext(g, offered)) == g
  {
    assert (g.history + [Some(offered)])[..|g.history|] == g.history;
  }

  /** One user interaction on a rendered page: what was pressed, and the
      `nextPageToken` of the page it was pressed on. A disabled button does
      nothing. */
  datatype Action = ChangeLanguage(lang: string) | PressPrevious | PressNext
  datatype Interaction = Interaction(action: Action, offered: Json)

  function Step(g: Pager, x: Interaction): Pager {
    match x.action
    case ChangeLanguage(lang) => SelectLanguage(g, lang)
    case PressPrevious => if CanGoPrevious(g) then GoPrevious(g) else g
    case PressNext => if CanGoNext(x.offered) then GoNext(g, x.offered) else g
  }

  function Run(g: Pager, xs: seq<Interaction>): Pager {
    if |xs| == 0 then g else Step(Run(g, xs[..|xs| - 1]), xs[|xs| - 1])
  }

  /** Every token the pages offered during a run. */
  function Offered(xs: seq<Interaction>): set<Json> {
    set i | 0 <= i < |xs| :: xs[i].offered
  }

  /** The controller never fabricates a token: every stored one was offered. */
  predicate TokensFrom(g: Pager, tokens: set<Json>) {
    forall i :: 0 <= i < |g.history| && g.history[i].Some? ==> g.history[i].value in tokens
  }

  /** From a new session, any run of interactions keeps the invariant, and
      every stored token is one that some page offered. */
  lemma {:induction false} RunFromInit(xs: seq<Interaction>)
    ensures Valid(Run(Init(), xs))
    ensures TokensFrom(Run(Init(), xs), Offered(xs))
  {
    if |xs| > 0 {
      var front := xs[..|xs| - 1];
      RunFromInit(front);
      var g := Run(Init(), front);
      var x := xs[|xs| - 1];
      assert Offered(xs) == Offered(front) + {x.offered} by {
        assert forall i :: 0 <= i < |front| ==> front[i] == xs[i];
      }
      var h := Step(g, x);
      forall i | 0 <= i < |h.history| && h.history[i].Some?
        ensures h.history[i].value in Offered(xs)
      {
        if x.action.PressNext? && CanGoNext(x.offered) && i == |g.history| {
          assert h.history[i].value == x.offered;
        } else if x.action.PressNext? || x.action.PressPrevious? {
          assert h.history[i] == g.history[i];
        }
      }
    }
  }

  /** The end-to-end scenario: from a reset gallery, forward to "T1" and back
      lands on the first page again. */
  lemma ForwardThenBack(g: Pager, lang: string)
    requires lang != g.language
    ensures var h := Run(g, [Interaction(ChangeLanguage(lang), JNull),
                             Interaction(PressNext, JStr("T1")),
                             Interaction(PressPrevious, JNull)]);
            h.token.None? && h.history == [None] && h.language == lang
  {
    var xs := [Interaction(ChangeLanguage(lang), JNull),
               Interaction(PressNext, JStr("T1")),
               Interaction(PressPrevious, JNull)];
    assert xs[..1][..0] == [];
    assert Run(g, xs[..1][..0]) == g;
    var g1 := Run(g, xs[..1]);
    assert g1 == Step(g, xs[0]);
    assert g1 == Pager(lang, None, [None]);
    assert xs[..2][..1] == xs[..1];
    var g2 := Run(g, xs[..2]);
    assert g2 == GoNext(g1, JStr("T1"));
    assert xs[..3] == xs;
    assert Run(g, xs) == GoPrevious(g2);
  }

  /** The request the gallery makes for the current page. */
  function FetchPage(g: Pager, apiKey: Option<string>, http: FactCheckApi.Request -> FactCheckApi.HttpOutcome,
                     repr: Json -> string): FactCheckApi.ApiCall
  {
    FactCheckApi.CallFactCheckApi(apiKey, Some(GalleryQuery), g.language, GalleryPageSize, g.token, http, repr)
  }

  /** The first page is requested without a page token; every later page is
      requested with exactly the token stored for it. */
  lemma PageRequestCarriesToken(g: Pager, apiKey: Option<string>,
                                http: FactCheckApi.Request -> FactCheckApi.HttpOutcome, repr: Json -> string)
    requires Valid(g) && Text.Filled(apiKey)
    ensures var c := FetchPage(g, apiKey, http, repr);
            && c.request.Some?
            && ("pageToken" in c.request.value.params <==> CanGoPrevious(g))
            && (CanGoPrevious(g) ==> c.request.value.params["pageToken"] == g.token.value)
            && c.request.value.params["query"] == JStr(GalleryQuery)
            && c.request.value.params["languageCode"] == JStr(g.language)
  {
    if CanGoPrevious(g) {
      assert g.history[|g.history| - 1].Some?;
    }
  }

  /** The notice above the gallery. */
  datatype Notice = NoRecentChecks | ShowClaims(claims: seq<Json>) | NoMoreChecks

  /** Nothing on the first page means there are no recent fact checks; nothing
      on a later page means there are no more. */
  function NoticeFor(claims: seq<Json>, token: Option<Json>): (n: Notice)
    ensures n.ShowClaims? <==> |claims| > 0
    ensures n.ShowClaims? ==> n.claims == claims
    ensures n.NoRecentChecks? <==> |claims| == 0 && token.None?
    ensures n.NoMoreChecks? <==> |claims| == 0 && token.Some?
  {
    if |claims| == 0 && token.None? then NoRecentChecks
    else if |claims| > 0 then ShowClaims(claims)
    else NoMoreChecks
  }

  /** An empty page reached with "Next" reports "no more", not "no recent". */
  lemma EmptyLaterPage(g: Pager)
    requires Valid(g) && CanGoPrevious(g)
    ensures NoticeFor([], g.token) == NoMoreChecks
  {
    assert g.history[|g.history| - 1].Some?;
  }

  /** The response shapes the page reads without raising: a dict (`.get` at
      Home.py:200) whose "claims", when truthy, is a list (the card loop). A
      falsy "claims" of any type reads as no claims. */
  predicate PageShaped(resp: Json) {
    resp.JObj? && (Truthy(Get(resp.fields, "claims")) ==> resp.fields["claims"].JArr?)
  }

  /** `api_response.get('claims', [])`, as the gallery then reads it: a falsy
      value means no claims. */
  function PageClaims(resp: Json): (claims: seq<Json>)
    requires PageShaped(resp)
    ensures |claims| > 0 <==> Truthy(Get(resp.fields, "claims"))
  {
    var claims := Get(resp.fields, "claims");
    if Truthy(claims) then claims.items else []
  }

  /** What the gallery view shows for one response. */
  datatype View =
    | ErrorView(message: string, keyHint: bool)
    | CardsView(notice: Notice, previousEnabled: bool, nextEnabled: bool)

  function RenderGallery(g: Pager, resp: Json, repr: Json -> string): (v: View)
    requires PageShaped(resp)
    ensures v.ErrorView? <==> "error" in resp.fields
    ensures v.ErrorView? ==> v.message == "Error: " + Show(resp.fields["error"], repr)
    ensures v.ErrorView? ==> v.keyHint == (resp.fields["error"] == JStr(FactCheckApi.MissingKeyMessage))
    ensures v.CardsView? ==>
              && v.notice == NoticeFor(PageClaims(resp), g.token)
              && (v.previousEnabled <==> CanGoPrevious(g))
              && (v.nextEnabled <==> CanGoNext(Get(resp.fields, "nextPageToken")))
  {
    if "error" in resp.fields then
      var err := resp.fields["error"];
      ErrorView("Error: " + Show(err, repr), err == JStr(FactCheckApi.MissingKeyMessage))
    else
      CardsView(NoticeFor(PageClaims(resp), g.token), CanGoPrevious(g),
                CanGoNext(Get(resp.fields, "nextPageToken")))
  }

  /** A missing key always reaches the user as the error view with the hint. */
  lemma MissingKeyShowsHint(g: Pager, apiKey: Option<string>,
                            http: FactCheckApi.Request -> FactCheckApi.HttpOutcome, repr: Json -> string)
    requires !Text.Filled(apiKey)
    ensures PageShaped(FetchPage(g, apiKey, http, repr).result)
    ensures RenderGallery(g, FetchPage(g, apiKey, http, repr).result, repr)
            == ErrorView("Error: " + FactCheckApi.MissingKeyMessage, true)
  {
  }

  /** The detail view for the selected claim index. */
  datatype Detail = NoSelection | ShowDetail(claim: Json) | DropSelection

  /** A selection is shown only when it indexes the current page's claims;
      any other selection is cleared. */
  function DetailFor(selected: Option<int>, claims: seq<Json>): (d: Detail)
    ensures d.NoSelection? <==> selected.None?
    ensures d.ShowDetail? <==> selected.Some? && 0 <= selected.value < |claims|
    ensures d.ShowDetail? ==> d.claim == claims[selected.value]
  {
    if selected.None? then NoSelection
    else if 0 <= selected.value < |claims| then ShowDetail(claims[selected.value])
    else DropSelection
  }

  // ---------------------------------------------------------------------------
  // The page as written

  /** How far a run of the page gets. The page calls two card helpers that the
      utils module does not define, so reaching either call ends the run with
      an AttributeError, naming the helper. */
  datatype Rendering<T> = Shown(view: T) | MissingHelper(name: string)

  /** The gallery view as written: a page with claims stops at the first
      `render_gallery_card` call, before the pagination buttons are drawn. */
  function RenderGalleryAsWritten(g: Pager, resp: Json, repr: Json -> string): (o: Rendering<View>)
    requires PageShaped(resp)
    ensures o.MissingHelper? <==> "error" !in resp.fields && |PageClaims(resp)| > 0
    ensures o.MissingHelper? ==> o.name == "render_gallery_card"
    ensures o.Shown? ==> o.view == RenderGallery(g, resp, repr)
  {
    if "error" !in resp.fields && |PageClaims(resp)| > 0 then MissingHelper("render_gallery_card")
    else Shown(RenderGallery(g, resp, repr))
  }

  /** A page with one claim and a next-page token: the intended view draws the
      cards and enables "Next Page", the page as written draws no button. */
  lemma NonEmptyPageHasNoButtons(g: Pager, repr: Json -> string)
    ensures var resp := JObj(map["claims" := JArr([EmptyObj]), "nextPageToken" := JStr("T")]);
            && PageShaped(resp)
            && RenderGalleryAsWritten(g, resp, repr) == MissingHelper("render_gallery_card")
            && RenderGallery(g, resp, repr) == CardsView(ShowClaims([EmptyObj]), CanGoPrevious(g), true)
  {
    var resp := JObj(map["claims" := JArr([EmptyObj]), "nextPageToken" := JStr("T")]);
    assert Get(resp.fields, "claims") == JArr([EmptyObj]);
    assert PageClaims(resp) == [EmptyObj];
  }

  /** The detail view as written: a valid selection stops at the
      `render_claim_details` call; the other selections behave as intended. */
  function DetailAsWritten(selected: Option<int>, claims: seq<Json>): (o: Rendering<Detail>)
    ensures o.MissingHelper? <==> DetailFor(selected, claims).ShowDetail?
    ensures o.MissingHelper? ==> o.name == "render_claim_details"
    ensures o.Shown? ==> o.view == DetailFor(selected, claims)
  {
    if selected.Some? && 0 <= selected.value < |claims| then MissingHelper("render_claim_details")
    else Shown(DetailFor(selected, claims))
  }

  /** Selecting the only claim of a page: intended to show it, as written a
      crash. */
  lemma ValidSelectionRaises(claim: Json)
    ensures DetailFor(Some(0), [claim]) == ShowDetail(claim)
    ensures DetailAsWritten(Some(0), [claim]) == MissingHelper("render_claim_details")
  {
  }
}

=== FILE: json_values.dfy ===
/**
 Decoded JSON values as the application sees them: the dicts, lists and
 scalars that `response.json()` produces and that the pages pass around.
 Python's `None` is `JNull`, whether it was decoded from `null` or produced by
 `dict.get` on a missing key.
 */
module JsonValues {
  import opened Text

  datatype Json =
    | JNull
    | JBool(b: bool)
    | JNum(n: int)
    | JStr(s: string)
    | JArr(items: seq<Json>)
    | JObj(fields: map<string, Json>)

  /** Python truthiness: None, False, 0, "", [] and {} are false, all else true. */
  predicate Truthy(j: Json) {
    match j
    case JNull => false
    case JBool(b) => b
    case JNum(n) => n != 0
    case JStr(s) => |s| > 0
    case JArr(xs) => |xs| > 0
    case JObj(m) => |m| > 0
  }

  /** `d.get(k)` */
  function Get(m: map<string, Json>, k: string): Json {
    if k in m then m[k] else JNull
  }

  /** `d.get(k, default)` */
  function GetOr(m: map<string, Json>, k: string, default: Json): Json {
    if k in m then m[k] else default
  }

  const EmptyObj: Json := JObj(map[])

  /** `{"error": msg}`, the shape every failure of the fact-check call takes. */
  function ErrorDict(msg: string): Json {
    JObj(map["error" := JStr(msg)])
  }

  /** Python's `str(v)` (what an f-string interpolates). Scalars are rendered
      as Python renders them; the repr of a list or dict is the parameter
      `repr`, since it depends on key order the model does not keep. */
  function Show(j: Json, repr: Json -> string): string {
    match j
    case JNull => "None"
    case JBool(b) => if b then "True" else "False"
    case JNum(n) => IntToString(n)
    case JStr(s) => s
    case _ => repr(j)
  }

  /** `str(type(v))` */
  function TypeName(j: Json): string {
    match j
    case JNull => "<class 'NoneType'>"
    case JBool(_) => "<class 'bool'>"
    case JNum(_) => "<class 'int'>"
    case JStr(_) => "<class 'str'>"
    case JArr(_) => "<class 'list'>"
    case JObj(_) => "<class 'dict'>"
  }
}

=== FILE: text.dfy ===
/**
 The few Python string operations the application relies on, stated over
 `string` (a sequence of Unicode scalar values): `str.isspace`/`str.strip`,
 `str()` of an integer, `str.lower` on ASCII text, `str.replace` of one
 character, and `"\n".join`.
 */
module Text {
  import opened Wrappers

  /** `if s:` for an optional string, such as a secret read with
      `st.secrets.get`: it must be there and non-empty. */
  predicate Filled(s: Option<string>) {
    s.Some? && |s.value| > 0
  }

  /** Python's `str.isspace()` for a single character (the Unicode White_Space
      characters plus the ASCII information separators 0x1c-0x1f). */
  predicate IsSpace(c: char) {
    var k := c as int;
    || k == 0x20
    || 0x09 <= k <= 0x0d
    || 0x1c <= k <= 0x1f
    || k == 0x85
    || k == 0xa0
    || k == 0x1680
    || 0x2000 <= k <= 0x200a
    || k == 0x2028
    || k == 0x2029
    || k == 0x202f
    || k == 0x205f
    || k == 0x3000
  }

  /** `s.rstrip()`: the longest prefix of `s` that does not end in whitespace. */
  function TrimRight(s: string): (r: string)
    ensures r <= s
    ensures |r| == 0 || !IsSpace(r[|r| - 1])
    ensures forall i :: |r| <= i < |s| ==> IsSpace(s[i])
  {
    if |s| == 0 || !IsSpace(s[|s| - 1]) then s else TrimRight(s[..|s| - 1])
  }

  /** `s.lstrip()`: the longest suffix of `s` that does not start with whitespace. */
  function TrimLeft(s: string): (r: string)
    ensures |r| <= |s| && r == s[|s| - |r|..]
    ensures |r| == 0 || !IsSpace(r[0])
    ensures forall i :: 0 <= i < |s| - |r| ==> IsSpace(s[i])
  {
    if |s| == 0 || !IsSpace(s[0]) then s else TrimLeft(s[1..])
  }

  /** `s.strip()` */
  function Strip(s: string): string {
    TrimLeft(TrimRight(s))
  }

  /** `strip` leaves no whitespace at either end. */
  lemma StripTrims(s: string)
    ensures var r := Strip(s); |r| == 0 || (!IsSpace(r[0]) && !IsSpace(r[|r| - 1]))
  {
    var t := TrimRight(s);
    var r := TrimLeft(t);
    assert |r| == 0 || r[|r| - 1] == t[|t| - 1];
  }

  /** Right-stripping a concatenation only touches the tail, as long as the
      tail holds some non-whitespace character. */
  lemma {:induction false} TrimRightAppend(a: string, b: string)
    requires exists i :: 0 <= i < |b| && !IsSpace(b[i])
    ensures TrimRight(a + b) == a + TrimRight(b)
    decreases |b|
  {
    if !IsSpace(b[|b| - 1]) {
      assert (a + b)[|a + b| - 1] == b[|b| - 1];
    } else {
      var b' := b[..|b| - 1];
      var i :| 0 <= i < |b| && !IsSpace(b[i]);
      assert i < |b'| && b'[i] == b[i];
      TrimRightAppend(a, b');
      assert (a + b)[..|a + b| - 1] == a + b';
    }
  }

  predicate IsDigit(c: char) {
    '0' <= c <= '9'
  }

  function DigitChar(d: int): (c: char)
    requires 0 <= d < 10
    ensures IsDigit(c) && c as int - '0' as int == d
  {
    (48 + d) as char
  }

  /** Python's `str(n)` for a non-negative integer: its decimal digits, without
      leading zeros. */
  function NatToString(n: nat): (s: string)
    ensures |s| > 0
    ensures forall i :: 0 <= i < |s| ==> IsDigit(s[i])
    ensures s[0] == '0' ==> n == 0
    decreases n
  {
    if n < 10 then [DigitChar(n)] else NatToString(n / 10) + [DigitChar(n % 10)]
  }

  /** The number a string of decimal digits denotes. */
  function DigitsValue(s: string): nat
    requires forall i :: 0 <= i < |s| ==> IsDigit(s[i])
  {
    if |s| == 0 then 0
    else
      assert IsDigit(s[|s| - 1]);
      DigitsValue(s[..|s| - 1]) * 10 + (s[|s| - 1] as int - '0' as int)
  }

  /** Reading back the decimal rendering gives the number again, so distinct
      numbers render differently. */
  lemma {:induction false} NatToStringRoundTrip(n: nat)
    ensures DigitsValue(NatToString(n)) == n
    decreases n
  {
    if n >= 10 {
      NatToStringRoundTrip(n / 10);
      var s := NatToString(n);
      assert s[..|s| - 1] == NatToString(n / 10);
    }
  }

  /** Python's `str(i)` for any integer. */
  function IntToString(i: int): (s: string)
    ensures i >= 0 ==> s == NatToString(i)
    ensures i < 0 ==> s == "-" + NatToString(-i)
  {
    if i < 0 then "-" + NatToString(-i) else NatToString(i)
  }

  function LowerChar(c: char): char {
    if 'A' <= c <= 'Z' then (c as int + 32) as char else c
  }

  /** `s.lower()` restricted to ASCII letters. */
  function LowerAscii(s: string): (r: string)
    ensures |r| == |s|
    ensures forall i :: 0 <= i < |r| ==> !('A' <= r[i] <= 'Z')
    ensures forall i :: 0 <= i < |r| && !('A' <= s[i] <= 'Z') ==> r[i] == s[i]
  {
    seq(|s|, i requires 0 <= i < |s| => LowerChar(s[i]))
  }

  /** `s.replace(c, rep)` for a single character `c`. */
  function ReplaceChar(s: string, c: char, rep: string): (r: string)
    ensures c !in rep ==> c !in r
    ensures c !in s ==> r == s
    ensures |r| >= |s| - multiset(s)[c]
  {
    if |s| == 0 then ""
    else
      assert s == [s[0]] + s[1..];
      (if s[0] == c then rep else [s[0]]) + ReplaceChar(s[1..], c, rep)
  }

  /** `"\n".join(ss)` */
  function JoinLines(ss: seq<string>): string {
    if |ss| == 0 then ""
    else if |ss| == 1 then ss[0]
    else JoinLines(ss[..|ss| - 1]) + "\n" + ss[|ss| - 1]
  }

  /** Joining one more line adds it after a newline (or alone, for the first). */
  lemma JoinLinesSnoc(ss: seq<string>, s: string)
    ensures JoinLines(ss + [s]) == if |ss| == 0 then s else JoinLines(ss) + "\n" + s
  {
    assert (ss + [s])[..|ss|] == ss;
  }

  /** Extending the last line with "\n" + s joins to the same text as adding s
      as a line of its own. */
  lemma JoinLinesExtendLast(front: seq<string>, last: string, s: string)
    ensures JoinLines(front + [last + "\n" + s]) == JoinLines(front + [last]) + "\n" + s
  {
    JoinLinesSnoc(front, last + "\n" + s);
    JoinLinesSnoc(front, last);
    if |front| > 0 {
      var a := JoinLines(front) + "\n";
      AppendAssoc(a, last + "\n", s);
      AppendAssoc(a, last, "\n");
    }
  }

  lemma AppendAssoc(a: string, b: string, c: string)
    ensures a + (b + c) == a + b + c
  {
  }

  /** Appending the strings one after another. */
  function Concat(ss: seq<string>): string {
    if |ss| == 0 then "" else Concat(ss[..|ss| - 1]) + ss[|ss| - 1]
  }

  /** Each string follows the concatenation of the ones before it. */
  lemma {:induction false} ConcatInPlace(ss: seq<string>, i: nat)
    requires i < |ss|
    ensures Concat(ss[..i]) + ss[i] <= Concat(ss)
    decreases |ss|
  {
    var front := ss[..|ss| - 1];
    if i < |ss| - 1 {
      ConcatInPlace(front, i);
      assert front[..i] == ss[..i] && front[i] == ss[i];
      assert Concat(ss) == Concat(front) + ss[|ss| - 1];
    } else {
      assert ss[..i] == front;
    }
  }

  /** `sub in s` */
  predicate Contains(s: string, sub: string)
    decreases |s|
  {
    sub <= s || (|s| > 0 && Contains(s[1..], sub))
  }

  /** A string occurs in any text built around it. */
  lemma {:induction false} ContainsMiddle(a: string, sub: string, b: string)
    ensures Contains(a + sub + b, sub)
    decreases |a|
  {
    if |a| > 0 {
      ContainsMiddle(a[1..], sub, b);
      assert (a + sub + b)[1..] == a[1..] + sub + b;
    }
  }

  /** `s.endswith(suffix)` */
  predicate EndsWith(s: string, suffix: string) {
    |suffix| <= |s| && s[|s| - |suffix|..] == suffix
  }
}

=== FILE: wrappers.dfy ===
/** Values that may be absent: a secret that is not configured, a session key
    that is not set, a regular expression that does not match. */
module Wrappers {

  datatype Option<T> = None | Some(value: T) {

    /** Python's `x if x is not None else fallback`. */
    function ValueOr(fallback: T): T {
      if Some? then value else fallback
    }
  }
}
